=== FILE: README.md ===
# Xer.Cqrs core, modelled in Dafny

This project models two parts of the Xer.Cqrs in-process CQRS framework and proves properties about them.

The first part is event sourcing. An `EventSourcedAggregate` has a version counter, a FIFO queue of uncommitted domain events, and a table of appliers keyed by the exact event type. For an event that fails to apply, the version and the queue stay unchanged, but changes the applier made to the domain state before throwing remain; a history replay that meets such an event, or a null element, yields no aggregate. The stores run the same `Save` sequence: commit the uncommitted events, hand them to the publisher, then clear the queue. The in-memory store keeps an append-only stream for each aggregate id. It supports full reads and reads up to a version.

The second part is handler registration, resolution and dispatch. It covers the query registration, the container-backed query and command resolvers, and the composite query provider. It also covers both command dispatchers: the single-handler one and the first-generation fan-out one. Last, it covers the validation of `[CommandHandler]` methods.

Handlers, handler factories, containers, providers, appliers, store backends and the publisher are all function-typed parameters. Exceptions are variants of `Base.Exception`. A thrown exception is the `Failure` side of a `Result`. A task is an `Outcome` (`Ok`, `Fault` or `Cancelled`). A null reference is `None`.

Files:

- `base.dfy` holds the shared types.
- `aggregate.dfy` models the aggregate.
- `domain_event_store.dfy` models the two abstract store templates.
- `in_memory_store.dfy` models the in-memory store.
- `query_registration.dfy` models query registration.
- `container_resolvers.dfy` models the two container resolvers.
- `composite_query_provider.dfy` models the composite provider.
- `command_dispatchers.dfy` models both command dispatchers.
- `attribute_method.dfy` models attribute-method classification.

Notes on the code as written:

- The container query resolver and the composite provider raise `QueryNotHandledException`. They do not raise a separate "no handler resolved" error.
- The composite has no predicate that suppresses failures. A provider's exception propagates.
- No store checks versions before appending.
- `GetUncommitedDomainEvents` does not clear the queue, although its doc comment says it does.

## Model

| member | source | states |
|---|---|---|
| Aggregate.RegisterApplier | Xer.DomainDriven.EventSourcing/EventSourcedAggregate.cs:144-151 | Registering an applier for an event type that already has one fails with an argument error. Otherwise the table gains exactly that type, mapped to the new applier, and other entries are kept. |
| Aggregate.BuildAppliers | Xer.DomainDriven.EventSourcing/EventSourcedAggregate.cs:140-151 | Building the table from a list of registrations succeeds exactly when no event type is registered twice. On success the table's keys are the registered types, and each type maps to its applier. |
| Aggregate.New | Xer.DomainDriven.EventSourcing/EventSourcedAggregate.cs:22-26 | A new aggregate has the given id, version 0, an empty uncommitted queue and the initial domain state. Construction fails exactly when the applier registrations contain a duplicate. Otherwise the applier table has exactly the registered event types as keys, each mapped to its registered applier. |
| Aggregate.InvokeApplier | Xer.DomainDriven.EventSourcing/EventSourcedAggregate.cs:94-124 | Applying succeeds exactly when the event's exact type has an applier and that applier completes. The state becomes the applier's result, or the partial state it left when it threw. On success the version goes up by one, and the event is queued at the end only when it is marked for commit. A missing applier fails with `DomainEventNotApplied` and leaves the aggregate unchanged. An applier fault is wrapped as `DomainEventNotApplied` around the original exception, and the version and queue are unchanged. |
| Aggregate.ApplyChange | Xer.DomainDriven.EventSourcing/EventSourcedAggregate.cs:77-86 | A null event is rejected with `ArgumentNullException` before any state change. Otherwise the event is applied and marked for commit. |
| Aggregate.Replay | Xer.DomainDriven.EventSourcing/EventSourcedAggregate.cs:40-45 | A successful replay of N history elements means none was null and every event's type has an applier. It raises the version by N and leaves the queue, the id and the appliers as they were. A failure is a `DomainEventNotApplied`, or a `NullReferenceException` for a history that holds a null element. |
| Aggregate.NullEventStopsReplay | Xer.DomainDriven.EventSourcing/EventSourcedAggregate.cs:42-45 | Take a null element in the history after events that all replay. Replay stops at it with `NullReferenceException`, which the `GetType()` call in the applier lookup raises outside the applier's `try`. |
| Aggregate.FailedEventStopsReplay | Xer.DomainDriven.EventSourcing/EventSourcedAggregate.cs:94-124 | Take an event, after events that all replay, whose type has no applier or whose applier throws. Replay stops there with exactly that `DomainEventNotApplied`, so no aggregate is built. |
| Aggregate.FromHistory | Xer.DomainDriven.EventSourcing/EventSourcedAggregate.cs:32-46 | Duplicate applier registrations fail first, because the chained constructor runs before anything else. A null history is then rejected. Otherwise a failure comes from an element: `DomainEventNotApplied` or `NullReferenceException`. A successful rebuild from N events means every element was present and had an applier. It has version N, an empty queue and the id `Guid.Empty`. |
| Aggregate.GetUncommitted | Xer.DomainDriven.EventSourcing/EventSourcedAggregate.cs:61-64 | The returned stream is tagged with the aggregate id and holds the queue in FIFO order. The queue is not cleared. |
| Aggregate.ClearUncommitted | Xer.DomainDriven.EventSourcing/EventSourcedAggregate.cs:51-54 | The queue is emptied. The version, id, domain state and appliers are unchanged. |
| Aggregate.ApplyAllQueuesInOrder | Xer.DomainDriven.EventSourcing/EventSourcedAggregate.cs:108-116 | After successive successful `ApplyChange` calls, the version has grown by the number of events. The queue is the old queue followed by the events in application order. |
| Aggregate.ReplayMatchesApplyAll | Xer.DomainDriven.EventSourcing/EventSourcedAggregate.cs:40-45 | Replaying the events that `ApplyChange` accepted gives the same version and domain state. The queue is left untouched. |
| Aggregate.ApplyAllMatchesReplay | Xer.DomainDriven.EventSourcing/EventSourcedAggregate.cs:40-45 | The converse: events that replay cleanly are also accepted by `ApplyChange`, one after the other. |
| Aggregate.RebuildFromAppliedEvents | Xer.DomainDriven.EventSourcing/EventSourcedAggregate.cs:32-46 | Rebuilding from the events a fresh aggregate applied gives back its version and domain state, with an empty queue. The rebuilt id is `Guid.Empty`. |
| Aggregate.VersionCountsAppliedEvents | Xer.DomainDriven.EventSourcing/EventSourcedAggregate.cs:16 | The version equals the number of replayed history events plus the number of queued uncommitted events. |
| DomainEventStore.Save | Xer.DomainDriven.EventSourcing/DomainEvents/Stores/DomainEventStore.cs:42-65 | `Commit` receives exactly the aggregate's id and uncommitted events, in order. Whatever `Commit` wrote to the backend stays, even when it then throws. If `Commit` throws, the exception propagates, nothing is published and the aggregate is unchanged. Otherwise the committed events are the ones published, and the queue is emptied afterwards. The version is never changed. |
| DomainEventAsyncStore.PublishCalls | Xer.DomainDriven.EventSourcing/DomainEvents/Stores/DomainEventAsyncStore.cs:66-73 | There is one publisher call for each event, in stream order, and each call carries the caller's token. |
| DomainEventAsyncStore.SaveAsync | Xer.DomainDriven.EventSourcing/DomainEvents/Stores/DomainEventAsyncStore.cs:49-59 | `CommitAsync` receives the uncommitted events and the caller's token. The backend is whatever the commit left. The returned task ends as the commit's task did. After a faulted or cancelled commit, nothing is published and the queue is kept. After a successful one, each committed event is published once with the caller's token, and the queue is emptied. |
| DomainEventAsyncStore.AsyncSaveAgreesWithSave | Xer.DomainDriven.EventSourcing/DomainEvents/Stores/DomainEventAsyncStore.cs:49-73 | Take a commit that behaves like the synchronous one. The asynchronous template then commits, clears and publishes exactly what the synchronous template does, and it adds the token to each publication. |
| InMemoryStore.Read | Xer.Cqrs.EventSourcing/DomainEvents/Stores/InMemoryDomainEventStore.cs:35-46 | Reading an id that was never committed gives an empty stream. Otherwise it gives the stored stream in full. |
| InMemoryStore.TakeWhileAtMost | Xer.Cqrs.EventSourcing/DomainEvents/Stores/InMemoryDomainEventStore.cs:63-64 | The result is a prefix of the stream, and all its events have a version at most the bound. It is the longest such prefix: the next event, if there is one, is newer than the bound. |
| InMemoryStore.ReadUpTo | Xer.Cqrs.EventSourcing/DomainEvents/Stores/InMemoryDomainEventStore.cs:54-65 | The versioned read is a prefix of the full read. It stops exactly before the first event newer than the requested version. |
| InMemoryStore.Commit | Xer.Cqrs.EventSourcing/DomainEvents/Stores/InMemoryDomainEventStore.cs:142-158 | The stored stream for the id becomes the old stream followed by the committed events. A first commit stores exactly those events. The id is added to the keys, and every other id keeps its stream. |
| InMemoryStore.DefaultCommit | Xer.Cqrs.EventSourcing/DomainEvents/Stores/InMemoryDomainEventStore.cs:142-158 | The base `Commit` never throws. The committed events go after the id's stored stream, the id joins the keys, and every other id keeps its stream. |
| InMemoryStore.Save | Xer.Cqrs.EventSourcing/DomainEvents/Stores/InMemoryDomainEventStore.cs:71-88 | The store is whatever the commit left behind. A commit that throws goes through `OnCommitError`, whose answer is what the caller sees. The aggregate is then unchanged and nothing is published. A successful commit publishes exactly the committed events and empties the queue, with nothing else about the aggregate changed. The version is kept in both cases. |
| InMemoryStore.Rethrow | Xer.Cqrs.EventSourcing/DomainEvents/Stores/InMemoryDomainEventStore.cs:189-192 | The default `OnCommitError` rethrows the very exception it was given. `FailedCommitIsRethrown` shows what `Save` then reports. |
| InMemoryStore.ReadAsync | Xer.Cqrs.EventSourcing/DomainEvents/Stores/InMemoryDomainEventStore.cs:100-105 | The asynchronous read is a completed task holding the synchronous read. |
| InMemoryStore.ReadUpToAsync | Xer.Cqrs.EventSourcing/DomainEvents/Stores/InMemoryDomainEventStore.cs:114-119 | The asynchronous versioned read is a completed task holding the synchronous versioned read. |
| InMemoryStore.SaveAsync | Xer.Cqrs.EventSourcing/DomainEvents/Stores/InMemoryDomainEventStore.cs:127-132 | The asynchronous save has the same effect as the synchronous `Save`, whatever the token. |
| InMemoryStore.SaveAppendsUncommitted | Xer.Cqrs.EventSourcing/DomainEvents/Stores/InMemoryDomainEventStore.cs:71-83 | With the store's own `Commit`, `Save` succeeds. The aggregate's stream grows by exactly its uncommitted events in order, and other streams are untouched. The queue is emptied, and the published events are the committed ones. |
| InMemoryStore.FailedCommitIsRethrown | Xer.Cqrs.EventSourcing/DomainEvents/Stores/InMemoryDomainEventStore.cs:84-87 | With the default `OnCommitError`, a commit exception is rethrown unchanged. The queue is kept and nothing is published. |
| InMemoryStore.PartialCommitIsKept | Xer.Cqrs.EventSourcing/DomainEvents/Stores/InMemoryDomainEventStore.cs:71-88 | Take a `Commit` override that calls the base `Commit` (lines 142-158) and then throws. The events stay stored while the aggregate keeps them queued, so the next `Save` stores them a second time. |
| InMemoryStore.SaveThenRebuild | Xer.Cqrs.EventSourcing/DomainEvents/Stores/InMemoryDomainEventStore.cs:35-83 | Take a fresh aggregate's applied events, saved and then read back. The read gives exactly those events, and replaying them restores the aggregate's version and domain state. |
| InMemoryStore.TakeWhileIsFilterWhenAscending | Xer.Cqrs.EventSourcing/DomainEvents/Stores/InMemoryDomainEventStore.cs:63-64 | When a stream's versions ascend, the versioned read equals keeping every event with a version at most the bound. |
| InMemoryStore.TakeWhileStopsAtFirstNewer | Xer.Cqrs.EventSourcing/DomainEvents/Stores/InMemoryDomainEventStore.cs:63-64 | For an out-of-order stream, the versioned read drops an older event that comes after a newer one. |
| QueryRegistration.Register | Xer.Cqrs.QueryStack/Registrations/QueryHandlerRegistration.cs:23-81 | Both overloads share one store. Registration fails with `InvalidOperationException` exactly when the query type is already registered, whether sync or async. Otherwise the type maps to the new factory and every other entry is kept. The factory is not called. |
| QueryRegistration.Resolve | Xer.Cqrs.QueryStack/Registrations/QueryHandlerRegistration.cs:92-104 | Resolving a registered type gives its stored entry. Resolving an unregistered type fails with `QueryNotHandledException` for that type. |
| QueryRegistration.Invoke | Xer.Cqrs.QueryStack/Registrations/QueryHandlerRegistration.cs:34-46 | The factory runs when the delegate is invoked. An exception the factory throws escapes unwrapped. A null instance fails then with `InvalidOperationException`. A sync handler's value becomes a completed task, and its exception is passed through unwrapped. An async handler receives the caller's token, and its task is returned unchanged. |
| QueryRegistration.RegisterTwiceFails | Xer.Cqrs.QueryStack/Registrations/QueryHandlerRegistration.cs:29-32 | A second registration for a query type fails, whichever overloads were used. |
| QueryRegistration.RegisterThenResolve | Xer.Cqrs.QueryStack/Registrations/QueryHandlerRegistration.cs:48 | After a type is registered, resolving it returns its own factory. Every other type resolves as before. |
| QueryRegistration.TwoTypesResolveIndependently | Tests/Queries/QueryDispatcherTests.cs:46-67 | With two query types registered one after the other, each resolves to its own handler. |
| QueryRegistration.SyncDelegateIgnoresToken | Xer.Cqrs.QueryStack/Registrations/QueryHandlerRegistration.cs:34-46 | The delegate built for a sync handler gives the same result whatever token it is given. |
| QueryRegistration.FactoryRunsPerInvocation | Xer.Cqrs.QueryStack/Registrations/QueryHandlerRegistration.cs:68-78 | Take one registered delegate and a factory that returns null in one scope and a handler in another. The delegate fails in the first scope and runs the handler in the second. |
| ContainerQueryResolver.Resolve | Xer.Cqrs.QueryStack/Resolvers/ContainerQueryHandlerResolver.cs:15-50 | An async handler instance wins. Otherwise a sync handler instance is used. Otherwise the call fails with `QueryNotHandledException` for the type, and a container exception never propagates. |
| ContainerQueryResolver.ContainerExceptionsAreSwallowed | Xer.Cqrs.QueryStack/Resolvers/ContainerQueryHandlerResolver.cs:26-46 | When a container throws, the resolver behaves as if it had returned null. Two containers that produce the same instances resolve alike. |
| ContainerCommandResolver.Resolve | Src/Xer.Cqrs.CommandStack/Resolvers/ContainerCommandAsyncHandlerResolver.cs:20-52 | An async handler instance gives its delegate. Every failure is a `NoCommandHandlerResolvedException` that names the command type and has an inner exception. A container exception becomes that inner exception. |
| ContainerCommandResolver.ResolveIntended | Src/Xer.Cqrs.CommandStack/Resolvers/ContainerCommandAsyncHandlerResolver.cs:42-52 | A null answer gives the "unable to resolve" exception with no inner exception. A container exception is wrapped once, and an instance gives its delegate. |
| ContainerCommandResolver.NoSyncFallback | Src/Xer.Cqrs.CommandStack/Resolvers/ContainerCommandAsyncHandlerResolver.cs:22-39 | Only the async capability is consulted. The container's answer for a sync handler never changes the result. |
| ContainerCommandResolver.NullAnswerIsWrappedTwice | Src/Xer.Cqrs.CommandStack/Resolvers/ContainerCommandAsyncHandlerResolver.cs:27-39 | As written, a null answer gives a `NoCommandHandlerResolvedException` whose inner exception is another one. That result differs from the intended one. |
| CompositeQueryProvider.GetQueryHandler | Xer.Cqrs.QueryStack/Registrations/CompositeQueryHandlerProvider.cs:20-32 | The result is the delegate of the first provider that does not return null. If that provider throws, its exception propagates instead. If all providers return null, or there are none, the call fails with `QueryNotHandledException`. |
| CompositeQueryProvider.LaterProvidersNotConsulted | Xer.Cqrs.QueryStack/Registrations/CompositeQueryHandlerProvider.cs:22-29 | Providers after the first non-null answer are never consulted: replacing them does not change the result. |
| CommandDispatcher.DispatchAsync | Xer.Cqrs.CommandStack/Dispatchers/CommandDispatcher.cs:32-47 | A null command throws `ArgumentNullException` before a task exists. A resolver exception propagates unchanged, and a null delegate throws `CommandNotHandledException`. Otherwise the task is the delegate's, invoked once with the command and the caller's token. |
| CommandDispatcher.Await | Xer.Cqrs.CommandStack/Dispatchers/CommandDispatcher.cs:20-24 | Waiting on the dispatch surfaces a synchronous throw as a fault carrying the same exception, and otherwise is the task's own outcome. It completes normally exactly when a task was returned and it completed normally. |
| CommandDispatcher.Dispatch | Xer.Cqrs.CommandStack/Dispatchers/CommandDispatcher.cs:20-24 | The sync dispatch is `DispatchAsync` with the default token, waited to completion. It has the same null, not-handled and resolver-failure outcomes. |
| CommandDispatcher.NullCommandSkipsResolver | Xer.Cqrs.CommandStack/Dispatchers/CommandDispatcher.cs:34-39 | A null command is rejected the same way whatever the resolver is. |
| CommandDispatcher.ContainerMissIsReported | Xer.Cqrs.CommandStack/Dispatchers/CommandDispatcher.cs:39-44 | Take a dispatch through the container resolver, as written, for a type the container answers null for. It throws that resolver's exception unchanged: a `NoCommandHandlerResolvedException` wrapping a second one for the same type. It never reaches `CommandNotHandledException`. |
| CommandDispatcher.FromContainer | Src/Xer.Cqrs.CommandStack/Resolvers/ContainerCommandAsyncHandlerResolver.cs:20-52 | As written, the container resolver never hands the dispatcher null. An instance becomes its delegate. A null answer throws a `NoCommandHandlerResolvedException` wrapping another for the same type. A container exception is wrapped once. |
| CommandDispatcher.ContainerMissIsReportedAsIntended | Src/Xer.Cqrs.CommandStack/Resolvers/ContainerCommandAsyncHandlerResolver.cs:42-52 | With the corrected resolver, the same dispatch throws a single `NoCommandHandlerResolvedException` with no inner exception. |
| CommandDispatcher.FromContainerIntended | Src/Xer.Cqrs.CommandStack/Resolvers/ContainerCommandAsyncHandlerResolver.cs:42-52 | The corrected container resolver never hands the dispatcher null either. A null answer throws a single `NoCommandHandlerResolvedException` with no inner exception. An instance and a container exception behave as in `FromContainer`. |
| LegacyCommandDispatcher.WhenAll | Xer.Cqrs/Dispatchers/CommandDispatcher.cs:33 | Waiting on all tasks completes exactly when every task completed. It faults exactly when some task faulted, and then rethrows the first fault in enumeration order. |
| LegacyCommandDispatcher.Dispatch | Xer.Cqrs/Dispatchers/CommandDispatcher.cs:18-36 | Handlers are looked up by the command's runtime type. Every handler is started exactly once, in enumeration order, before the caller observes any outcome. A null command fails on `GetType()` before any handler starts. |
| LegacyCommandDispatcher.NoHandlersIsNoOp | Xer.Cqrs/Dispatchers/CommandDispatcher.cs:22-33 | With no handlers registered, dispatch completes with no error. |
| LegacyCommandDispatcher.FirstFaultSurfaces | Xer.Cqrs/Dispatchers/CommandDispatcher.cs:33 | Waiting on the started tasks gives the first fault in enumeration order. This holds even when earlier tasks were cancelled or later ones faulted too. That every handler has started is stated by `LegacyCommandDispatcher.Dispatch`. |
| AttributeMethod.FirstClassParam | Src/Xer.Cqrs.CommandStack/Internals/CommandHandlerAttributeMethod.cs:136-145 | The command type is the type of the first class-typed parameter. There is none exactly when no parameter is class-typed. |
| AttributeMethod.FromMethodInfo | Src/Xer.Cqrs.CommandStack/Internals/CommandHandlerAttributeMethod.cs:117-175 | The checks run in order: null method, missing `[CommandHandler]`, no class-typed parameter, a return type other than `Task` or `void`, then `void` with a token. A method is accepted exactly when it passes all of them. `IsAsync` holds exactly for a `Task` return. `SupportsCancellation` holds exactly when some parameter is a `CancellationToken`. |
| AttributeMethod.AsyncVoidIsAcceptedAsSync | Tests/Mocks/CommandHandlers.cs:153-166 | An `async void` handler with a command parameter is accepted and classified as sync. |
| AttributeMethod.SyncWithTokenIsRefused | Tests/Mocks/CommandHandlers.cs:168-180 | A `void` handler that takes a `CancellationToken` is refused. |
| AttributeMethod.CreateMessageHandlerDelegate | Src/Xer.Cqrs.CommandStack/Internals/CommandHandlerAttributeMethod.cs:74-110 | A null factory is rejected, and so is an object type that differs from the declaring type. Otherwise the one builder that fits (`IsAsync`, `SupportsCancellation`) is used. A binding failure is wrapped in `InvalidOperationException`. |
| AttributeMethod.AtMostOneBuilderFits | Src/Xer.Cqrs.CommandStack/Internals/CommandHandlerAttributeMethod.cs:90-104 | The three builder cases do not overlap: at most one builder fits a descriptor. |
| AttributeMethod.BuilderMatchesSignature | Src/Xer.Cqrs.CommandStack/Internals/CommandHandlerAttributeMethod.cs:147-172 | For an accepted method, the chosen builder matches the signature. The sync wrapper is used only for `void` methods without a token. The cancellable builder is used only for `Task` methods with a token. |
| AttributeMethod.DescribeAll | Src/Xer.Cqrs.CommandStack/Internals/CommandHandlerAttributeMethod.cs:189 | Each method gets exactly one descriptor, in order. The first invalid method makes the scan fail with that method's error. |
| AttributeMethod.FromMethodInfos | Src/Xer.Cqrs.CommandStack/Internals/CommandHandlerAttributeMethod.cs:182-190 | A null list is rejected. Otherwise each method is described in order. |
| AttributeMethod.Marked | Src/Xer.Cqrs.CommandStack/Internals/CommandHandlerAttributeMethod.cs:204-205 | The attribute filter keeps only methods carrying `[CommandHandler]`, each one non-null and taken from the given list. Every marked method of the list is kept, and the result is never longer than the list. |
| AttributeMethod.MarkedAppend | Src/Xer.Cqrs.CommandStack/Internals/CommandHandlerAttributeMethod.cs:204-205 | The attribute filter is applied per method: filtering a concatenation of method lists is the concatenation of the filtered lists. |
| AttributeMethod.FromType | Src/Xer.Cqrs.CommandStack/Internals/CommandHandlerAttributeMethod.cs:197-208 | A null type is rejected. Otherwise the scan succeeds exactly when every marked runtime method is valid. A successful scan has one descriptor for each marked runtime method, in order. |
| AttributeMethod.Flatten | Src/Xer.Cqrs.CommandStack/Internals/CommandHandlerAttributeMethod.cs:222 | Concatenating the per-item scans succeeds exactly when every scan succeeds. It then gives the concatenation of their descriptor lists, in order. Otherwise it fails with the first failing scan's error. |
| AttributeMethod.FromTypes | Src/Xer.Cqrs.CommandStack/Internals/CommandHandlerAttributeMethod.cs:215-223 | A null list is rejected. Otherwise the scan succeeds exactly when every type's scan succeeds. |
| AttributeMethod.FromAssembly | Src/Xer.Cqrs.CommandStack/Internals/CommandHandlerAttributeMethod.cs:230-242 | A null assembly is rejected. Otherwise the scan succeeds exactly when every marked declared method of the assembly's types is valid. It then yields their descriptors, one to one and in order. |
| AttributeMethod.MarkedDeclared | Src/Xer.Cqrs.CommandStack/Internals/CommandHandlerAttributeMethod.cs:237-239 | The methods scanned for an assembly are the marked declared methods of its first type, then of its second, and so on. Every one is non-null, marked, and declared by one of the assembly's types. |
| AttributeMethod.FromAssemblies | Src/Xer.Cqrs.CommandStack/Internals/CommandHandlerAttributeMethod.cs:249-257 | A null list is rejected. Otherwise the scan succeeds exactly when every assembly's scan succeeds. |
| AttributeMethod.FromTypesOnePerMarkedMethod | Src/Xer.Cqrs.CommandStack/Internals/CommandHandlerAttributeMethod.cs:215-223 | A successful scan of several types yields, one to one and in order, the descriptors of the marked runtime methods of the first type, then of the second, and so on. |
| AttributeMethod.FromAssembliesOnePerMarkedMethod | Src/Xer.Cqrs.CommandStack/Internals/CommandHandlerAttributeMethod.cs:249-257 | A successful scan of several assemblies yields, one to one and in order, the descriptors of the marked declared methods of every type of the first assembly, then of the second, and so on. |

## Left out

- Timestamps are not modelled. `Entity.Created` and `Entity.Updated`, and the `Updated = DateTime.Now` refresh in `InvokeDomainEventApplier`, depend on the wall clock.
- `Version` is an unbounded integer. The C# `int` would wrap after 2^31 - 1 events, which is not reachable in practice.
- Aggregate.FromHistory: the history constructor does not set the id. Any id a subclass applier might assign is not modelled, because appliers change only the domain state `S`.
- Background publication is modelled only as the list of events, or publisher calls, handed to the publisher. This covers `TaskUtility.RunInBackground`, `Task.WhenAll` in the stores, `HandleAnyExceptions` and `OnPublishError`. When the publishing runs, and what its faults do afterwards, is concurrency.
- A publisher call that throws synchronously inside the in-memory store's `Save` is not modelled. That `Save` reaches `OnCommitError` only through a commit failure.
- A null aggregate passed to `Save` is not modelled. In the source it fails with a `NullReferenceException` when the uncommitted events are read.
- `DomainEventStream`, `AppendDomainEventStream` and `DomainEventStream.Empty` are not part of this model. Streams are `seq<Event>` plus an aggregate id. A versioned or full read returns only the events, not the id tag of the empty stream.
- `QueryHandlerDelegateBuilder`, `CommandHandlerDelegateBuilder` and `MethodInfo.CreateDelegate` are not part of this model. A built delegate is represented by the handler it wraps, or by the builder chosen. A binding failure is a parameter.
- A handler delegate that throws synchronously, instead of returning a faulted task, is treated as a faulted task. LegacyCommandDispatcher.Dispatch: such a throw would, in the source, stop the loop before the later handlers start.
- LegacyCommandDispatcher.WhenAll keeps only the first fault. `Task.WhenAll` aggregates every fault, and `GetResult` rethrows the first.
- AttributeMethod.FromTypes, AttributeMethod.FromAssemblies and AttributeMethod.FromMethodInfos are evaluated eagerly. The source's `Select` and `SelectMany` are lazy, so an invalid method surfaces when the result is enumerated, not when the method is called. Enumeration order is taken to be the order reflection lists the methods.
- Reflection is replaced by the `MethodSig` and `TypeInfo` datatypes. This covers `GetCustomAttribute`, `GetRuntimeMethods`, `DefinedTypes` and `DeclaredMethods`. An attribute subclass of `[CommandHandler]` is not distinguished.
- `BackgroundCommandDispatcher` is left out, because its whole behaviour is fire-and-forget scheduling.
- The samples, the DI container wiring, the repositories and the interfaces are left out, because they only delegate to the modelled code. `QueryDispatcher`, the predicate-based composite resolver, event handler registration and `TaskUtility` are not part of this model.
- No optimistic-concurrency check is modelled, because the stores' `Commit` has none. Concurrent saves to one aggregate are not modelled.

## Findings

| source | as written | input that shows it | evidently intended | confidence | as-written member | corrected member |
|---|---|---|---|---|---|---|
| Src/Xer.Cqrs.CommandStack/Resolvers/ContainerCommandAsyncHandlerResolver.cs:27-39 | The exception for a null container answer is thrown inside the `try`. The `catch (Exception)` then wraps it again, with the "error occurred while trying to resolve" message. | A container whose `Resolve<ICommandAsyncHandler<T>>()` returns null | The exception factory's `ex == null` branch, "unable to resolve", with no inner exception | medium (not executed) | ContainerCommandResolver.NullAnswerIsWrappedTwice | ContainerCommandResolver.ResolveIntended |

The dispatcher is modelled with the resolver as written (`CommandDispatcher.FromContainer`, `CommandDispatcher.ContainerMissIsReported`). The corrected resolver is plugged in separately (`CommandDispatcher.FromContainerIntended`, `CommandDispatcher.ContainerMissIsReportedAsIntended`).

=== FILE: aggregate.dfy ===
/** The event-sourced aggregate: a version counter, a FIFO queue of
    uncommitted domain events and a table of appliers keyed by the exact
    runtime type of an event. The subclass's own fields are the opaque domain
    state `S`; an applier maps that state and an event to a new state, or
    throws (possibly after changing part of the state). */
module Aggregate {
  import opened Base

  /** A domain event: its runtime type, the aggregate it belongs to, the
      aggregate version it carries and an opaque payload. */
  datatype Event = Event(eventType: TypeId, aggregateId: Id, aggregateVersion: int, payload: nat)

  /** An aggregate-scoped stream of domain events. */
  datatype Stream = Stream(aggregateId: Id, events: seq<Event>)

  /** What running an applier did: it completed with a new domain state, or it
      threw, leaving whatever it had already changed. */
  datatype Step<S> = Done(state: S) | Threw(partial: S, error: Exception)

  type Applier<!S> = (S, Event) -> Step<S>

  /** One `RegisterDomainEventApplier<TDomainEvent>(applier)` call. */
  datatype Registration<!S> = Registration(eventType: TypeId, applier: Applier<S>)

  datatype Aggregate<!S> = Aggregate(
    id: Id,
    version: int,
    uncommitted: seq<Event>,
    appliers: map<TypeId, Applier<S>>,
    state: S)

  /** The result of applying one event: the aggregate afterwards and the
      exception the call threw, if any. */
  datatype Applied<!S> = Applied(after: Aggregate<S>, error: Option<Exception>)

  /** No event type is registered twice. */
  predicate DistinctTypes<S>(regs: seq<Registration<S>>)
  {
    forall i, j :: 0 <= i < j < |regs| ==> regs[i].eventType != regs[j].eventType
  }

  /** `DomainEventApplierRegistration.RegisterDomainEventApplier`: a
      `Dictionary.Add`, which rejects a type that already has an applier. */
  function RegisterApplier<S>(appliers: map<TypeId, Applier<S>>, t: TypeId, f: Applier<S>): (r: Result<map<TypeId, Applier<S>>>)
    ensures r.Failure? <==> t in appliers
    ensures r.Failure? ==> r.error == Argument(DuplicateApplier)
    ensures r.Success? ==> r.value.Keys == appliers.Keys + {t} && r.value[t] == f
    ensures r.Success? ==> forall u :: u in appliers ==> r.value[u] == appliers[u]
  {
    if t in appliers then Failure(Argument(DuplicateApplier)) else Success(appliers[t := f])
  }

  /** The applier table the subclass's `RegisterDomainEventAppliers` builds by
      registering `regs` in order. */
  function BuildAppliers<S>(regs: seq<Registration<S>>): (r: Result<map<TypeId, Applier<S>>>)
    ensures r.Success? <==> DistinctTypes(regs)
    ensures r.Failure? ==> r.error == Argument(DuplicateApplier)
    ensures r.Success? ==> forall t :: t in r.value <==> exists i :: 0 <= i < |regs| && regs[i].eventType == t
    ensures r.Success? ==> forall i :: 0 <= i < |regs| ==> r.value[regs[i].eventType] == regs[i].applier
  {
    if |regs| == 0 then Success(map[])
    else
      var last := regs[|regs| - 1];
      match BuildAppliers(regs[..|regs| - 1])
      case Failure(e) =>
        assert !DistinctTypes(regs) by {
          var i, j :| 0 <= i < j < |regs| - 1 && regs[..|regs| - 1][i].eventType == regs[..|regs| - 1][j].eventType;
        }
        Failure(e)
      case Success(m) =>
        assert regs == regs[..|regs| - 1] + [last];
        RegisterLast(regs[..|regs| - 1], last, m);
        RegisterApplier(m, last.eventType, last.applier)
  }

  /** Registering one more applier on top of the table the others built. */
  lemma RegisterLast<S>(init: seq<Registration<S>>, last: Registration<S>, m: map<TypeId, Applier<S>>)
    requires DistinctTypes(init)
    requires forall t :: t in m <==> exists i :: 0 <= i < |init| && init[i].eventType == t
    requires forall i :: 0 <= i < |init| ==> m[init[i].eventType] == init[i].applier
    ensures var regs, r := init + [last], RegisterApplier(m, last.eventType, last.applier);
              && (r.Success? <==> DistinctTypes(regs))
              && (r.Success? ==> forall t :: t in r.value <==> exists i :: 0 <= i < |regs| && regs[i].eventType == t)
              && (r.Success? ==> forall i :: 0 <= i < |regs| ==> r.value[regs[i].eventType] == regs[i].applier)
  {
    var regs, n := init + [last], |init|;
    assert forall i :: 0 <= i < n ==> regs[i] == init[i];
    var r := RegisterApplier(m, last.eventType, last.applier);
    if r.Success? {
      forall i, j | 0 <= i < j < |regs| ensures regs[i].eventType != regs[j].eventType {
        if j == n {
          assert regs[i].eventType in m;
        }
      }
      forall t ensures t in r.value <==> exists i :: 0 <= i < |regs| && regs[i].eventType == t {
        if t in m {
          var i :| 0 <= i < n && init[i].eventType == t;
          assert regs[i].eventType == t;
        } else if t == last.eventType {
          assert regs[n] == last;
        }
      }
    } else {
      var i :| 0 <= i < n && init[i].eventType == last.eventType;
      assert regs[i].eventType == regs[n].eventType;
    }
  }

  /** `EventSourcedAggregate(Guid aggregateId)`: registers the appliers and
      starts at version 0 with nothing to commit. */
  function New<S>(id: Id, regs: seq<Registration<S>>, init: S): (r: Result<Aggregate<S>>)
    ensures r.Success? <==> DistinctTypes(regs)
    ensures r.Failure? ==> r.error == Argument(DuplicateApplier)
    ensures r.Success? ==> r.value.id == id && r.value.version == 0 && r.value.uncommitted == []
    ensures r.Success? ==> r.value.state == init
    ensures r.Success? ==> forall t :: t in r.value.appliers <==> exists i :: 0 <= i < |regs| && regs[i].eventType == t
    ensures r.Success? ==> forall i :: 0 <= i < |regs| ==> r.value.appliers[regs[i].eventType] == regs[i].applier
  {
    match BuildAppliers(regs)
    case Failure(e) => Failure(e)
    case Success(m) => Success(Aggregate(id, 0, [], m, init))
  }

  /** `InvokeDomainEventApplier(domainEvent, markDomainEventForCommit)`. The
      applier is chosen by the event's exact type; a missing applier and an
      applier fault are both `DomainEventNotApplied`, and in both cases the
      version and the queue are those from before the call. */
  function InvokeApplier<S>(a: Aggregate<S>, e: Event, mark: bool): (r: Applied<S>)
    ensures r.after.id == a.id && r.after.appliers == a.appliers
    ensures r.error.None? <==> e.eventType in a.appliers && a.appliers[e.eventType](a.state, e).Done?
    ensures r.error.None? ==> r.after.version == a.version + 1
    ensures r.error.None? && mark ==> r.after.uncommitted == a.uncommitted + [e]
    ensures r.error.None? && !mark ==> r.after.uncommitted == a.uncommitted
    ensures r.error.Some? ==> r.after.version == a.version && r.after.uncommitted == a.uncommitted
    ensures r.error.Some? ==> r.error.value.DomainEventNotApplied? && r.error.value.eventType == e.eventType
    ensures e.eventType !in a.appliers ==> r == Applied(a, Some(DomainEventNotApplied(e.eventType, None)))
    ensures e.eventType in a.appliers && a.appliers[e.eventType](a.state, e).Threw? ==>
              r.error == Some(DomainEventNotApplied(e.eventType, Some(a.appliers[e.eventType](a.state, e).error)))
    ensures e.eventType in a.appliers && a.appliers[e.eventType](a.state, e).Threw? ==>
              r.after.state == a.appliers[e.eventType](a.state, e).partial
    ensures e.eventType in a.appliers && a.appliers[e.eventType](a.state, e).Done? ==>
              r.after.state == a.appliers[e.eventType](a.state, e).state
  {
    if e.eventType !in a.appliers then
      Applied(a, Some(DomainEventNotApplied(e.eventType, None)))
    else
      match a.appliers[e.eventType](a.state, e)
      case Threw(partial, ex) =>
        Applied(a.(state := partial), Some(DomainEventNotApplied(e.eventType, Some(ex))))
      case Done(s) =>
        var queue := if mark then a.uncommitted + [e] else a.uncommitted;
        Applied(a.(version := a.version + 1, uncommitted := queue, state := s), None)
  }

  /** `ApplyChange(domainEvent)`: rejects null, then applies and marks the
      event for commit. */
  function ApplyChange<S>(a: Aggregate<S>, e: Option<Event>): (r: Applied<S>)
    ensures e.None? ==> r == Applied(a, Some(ArgumentNull("domainEvent")))
    ensures e.Some? ==> r == InvokeApplier(a, e.value, true)
  {
    match e
    case None => Applied(a, Some(ArgumentNull("domainEvent")))
    case Some(ev) => InvokeApplier(a, ev, true)
  }

  /** The replay loop of the history constructor: every event is applied
      without being marked for commit; the first failure aborts. A null
      element fails on `GetType()` before any applier is looked up, outside
      the applier's `try`, so it surfaces as `NullReferenceException`. */
  function Replay<S>(a: Aggregate<S>, history: seq<Option<Event>>): (r: Result<Aggregate<S>>)
    ensures r.Success? ==> forall i :: 0 <= i < |history| ==> history[i].Some?
    ensures r.Success? ==> r.value.version == a.version + |history|
    ensures r.Success? ==> r.value.uncommitted == a.uncommitted
    ensures r.Success? ==> r.value.id == a.id && r.value.appliers == a.appliers
    ensures r.Success? ==> forall i :: 0 <= i < |history| ==> history[i].value.eventType in a.appliers
    ensures r.Failure? ==> r.error.DomainEventNotApplied? || r.error == NullReference
    ensures r.Failure? && r.error == NullReference ==> exists i :: 0 <= i < |history| && history[i].None?
    decreases |history|
  {
    if |history| == 0 then Success(a)
    else
      match history[0]
      case None => Failure(NullReference)
      case Some(e) =>
        var step := InvokeApplier(a, e, false);
        match step.error
        case Some(ex) => Failure(ex)
        case None =>
          var rest := Replay(step.after, history[1..]);
          assert forall i :: 0 <= i < |history| - 1 ==> history[1..][i] == history[i + 1];
          rest
  }

  /** A stream read back from a store: every element present, in order. */
  function AsHistory(es: seq<Event>): (r: seq<Option<Event>>)
    ensures |r| == |es|
    ensures forall i :: 0 <= i < |es| ==> r[i] == Some(es[i])
  {
    seq(|es|, i requires 0 <= i < |es| => Some(es[i]))
  }

  /** A null element stops the replay with `NullReferenceException` once the
      events before it have been applied. */
  lemma {:induction false} NullEventStopsReplay<S>(a: Aggregate<S>, history: seq<Option<Event>>, k: nat)
    requires k < |history| && history[k].None?
    requires Replay(a, history[..k]).Success?
    ensures Replay(a, history) == Failure(NullReference)
    decreases k
  {
    if k > 0 {
      assert history[..k][0] == history[0];
      var step := InvokeApplier(a, history[0].value, false);
      assert history[..k][1..] == history[1..][..k - 1];
      NullEventStopsReplay(step.after, history[1..], k - 1);
    }
  }

  /** An event that cannot be applied, because its type has no applier or its
      applier throws, stops the replay with that `DomainEventNotApplied` once
      the events before it have been applied: no aggregate is built. */
  lemma {:induction false} FailedEventStopsReplay<S>(a: Aggregate<S>, history: seq<Option<Event>>, k: nat, b: Aggregate<S>)
    requires k < |history| && history[k].Some?
    requires Replay(a, history[..k]) == Success(b)
    requires InvokeApplier(b, history[k].value, false).error.Some?
    ensures Replay(a, history) == Failure(InvokeApplier(b, history[k].value, false).error.value)
    decreases k
  {
    if k == 0 {
      assert history[..k] == [];
    } else {
      assert history[..k][0] == history[0];
      var step := InvokeApplier(a, history[0].value, false);
      assert history[..k][1..] == history[1..][..k - 1];
      FailedEventStopsReplay(step.after, history[1..], k - 1, b);
    }
  }

  /** `EventSourcedAggregate(DomainEventStream history)`. It chains to the
      `Guid.Empty` constructor first (so appliers are registered before the
      null check), then replays the history. */
  function FromHistory<S>(regs: seq<Registration<S>>, init: S, history: Option<seq<Option<Event>>>): (r: Result<Aggregate<S>>)
    ensures !DistinctTypes(regs) ==> r == Failure(Argument(DuplicateApplier))
    ensures DistinctTypes(regs) && history.None? ==> r == Failure(ArgumentNull("history"))
    ensures DistinctTypes(regs) && history.Some? && r.Failure? ==>
              r.error.DomainEventNotApplied? || r.error == NullReference
    ensures r.Success? ==> history.Some? && r.value.version == |history.value|
    ensures r.Success? ==> r.value.uncommitted == [] && r.value.id == EmptyId
    ensures r.Success? ==> forall i :: 0 <= i < |history.value| ==>
              history.value[i].Some? && history.value[i].value.eventType in r.value.appliers
  {
    match New(EmptyId, regs, init)
    case Failure(e) => Failure(e)
    case Success(empty) =>
      match history
      case None => Failure(ArgumentNull("history"))
      case Some(h) => Replay(empty, h)
  }

  /** `GetUncommitedDomainEvents`: the queue tagged with the aggregate id. It
      does not clear the queue. */
  function GetUncommitted<S>(a: Aggregate<S>): (r: Stream)
    ensures r.aggregateId == a.id && r.events == a.uncommitted
  {
    Stream(a.id, a.uncommitted)
  }

  /** `ClearUncommitedDomainEvents`: empties the queue, nothing else. */
  function ClearUncommitted<S>(a: Aggregate<S>): (r: Aggregate<S>)
    ensures r.uncommitted == []
    ensures r.version == a.version && r.id == a.id && r.state == a.state && r.appliers == a.appliers
  {
    a.(uncommitted := [])
  }

  /** A handler calling `ApplyChange` once per event of `es`, stopping at the
      first exception. */
  function ApplyAll<S>(a: Aggregate<S>, es: seq<Event>): (r: Result<Aggregate<S>>)
    decreases |es|
  {
    if |es| == 0 then Success(a)
    else
      var step := ApplyChange(a, Some(es[0]));
      match step.error
      case Some(ex) => Failure(ex)
      case None => ApplyAll(step.after, es[1..])
  }

  /** Successive `ApplyChange` calls bump the version once per event and
      queue the events in application order behind those already queued. */
  lemma {:induction false} ApplyAllQueuesInOrder<S>(a: Aggregate<S>, es: seq<Event>)
    requires ApplyAll(a, es).Success?
    ensures ApplyAll(a, es).value.version == a.version + |es|
    ensures ApplyAll(a, es).value.uncommitted == a.uncommitted + es
    ensures GetUncommitted(ApplyAll(a, es).value) == Stream(a.id, a.uncommitted + es)
    decreases |es|
  {
    if |es| > 0 {
      var step := ApplyChange(a, Some(es[0]));
      ApplyAllQueuesInOrder(step.after, es[1..]);
      assert a.uncommitted + [es[0]] + es[1..] == a.uncommitted + es;
    }
  }

  /** Applying changes and replaying the same events run the same appliers on
      the same states: the domain state and version agree, and replay leaves
      the queue alone. */
  lemma {:induction false} ReplayMatchesApplyAll<S>(a: Aggregate<S>, es: seq<Event>)
    requires ApplyAll(a, es).Success?
    ensures Replay(a, AsHistory(es)).Success?
    ensures Replay(a, AsHistory(es)).value == ApplyAll(a, es).value.(uncommitted := a.uncommitted)
    decreases |es|
  {
    if |es| > 0 {
      var step := ApplyChange(a, Some(es[0]));
      var replayed := InvokeApplier(a, es[0], false);
      assert replayed.after == step.after.(uncommitted := a.uncommitted);
      assert AsHistory(es)[1..] == AsHistory(es[1..]);
      ReplayMatchesApplyAll(step.after, es[1..]);
      ReplayFromSameState(replayed.after, step.after, AsHistory(es[1..]));
    }
  }

  /** Conversely, events that replay cleanly can also be applied as changes
      one after the other. */
  lemma {:induction false} ApplyAllMatchesReplay<S>(a: Aggregate<S>, es: seq<Event>)
    requires Replay(a, AsHistory(es)).Success?
    ensures ApplyAll(a, es).Success?
    decreases |es|
  {
    if |es| > 0 {
      var step := ApplyChange(a, Some(es[0]));
      var replayed := InvokeApplier(a, es[0], false);
      assert AsHistory(es)[0] == Some(es[0]);
      assert AsHistory(es)[1..] == AsHistory(es[1..]);
      assert step.after == replayed.after.(uncommitted := step.after.uncommitted);
      ReplayFromSameState(step.after, replayed.after, AsHistory(es[1..]));
      ApplyAllMatchesReplay(step.after, es[1..]);
    }
  }

  /** Replay does not look at the queue: two aggregates that differ only in
      their queues replay to the same result, up to the queue. */
  lemma {:induction false} ReplayFromSameState<S>(a: Aggregate<S>, b: Aggregate<S>, es: seq<Option<Event>>)
    requires a == b.(uncommitted := a.uncommitted)
    requires Replay(b, es).Success?
    ensures Replay(a, es).Success?
    ensures Replay(a, es).value == Replay(b, es).value.(uncommitted := a.uncommitted)
    decreases |es|
  {
    if |es| > 0 {
      var sa := InvokeApplier(a, es[0].value, false);
      var sb := InvokeApplier(b, es[0].value, false);
      assert sa.after == sb.after.(uncommitted := a.uncommitted);
      ReplayFromSameState(sa.after, sb.after, es[1..]);
    }
  }

  /** Rebuilding from the events a fresh aggregate applied gives back its
      version and domain state, with nothing to commit; as written, the
      rebuilt aggregate's id is `Guid.Empty`. */
  lemma RebuildFromAppliedEvents<S>(id: Id, regs: seq<Registration<S>>, init: S, es: seq<Event>)
    requires New(id, regs, init).Success?
    requires ApplyAll(New(id, regs, init).value, es).Success?
    ensures FromHistory(regs, init, Some(AsHistory(es))).Success?
    ensures FromHistory(regs, init, Some(AsHistory(es))).value
            == ApplyAll(New(id, regs, init).value, es).value.(id := EmptyId, uncommitted := [])
  {
    var started := New(id, regs, init).value;
    var anon := New(EmptyId, regs, init).value;
    ApplyAllFromOtherId(started, anon, es);
    ReplayMatchesApplyAll(anon, es);
  }

  /** The id plays no part in applying events. */
  lemma {:induction false} ApplyAllFromOtherId<S>(a: Aggregate<S>, b: Aggregate<S>, es: seq<Event>)
    requires b == a.(id := b.id)
    requires ApplyAll(a, es).Success?
    ensures ApplyAll(b, es).Success?
    ensures ApplyAll(b, es).value == ApplyAll(a, es).value.(id := b.id)
    decreases |es|
  {
    if |es| > 0 {
      var sa := ApplyChange(a, Some(es[0]));
      var sb := ApplyChange(b, Some(es[0]));
      assert sb.after == sa.after.(id := b.id);
      ApplyAllFromOtherId(sa.after, sb.after, es[1..]);
    }
  }

  /** `Version` counts every event ever applied: those replayed from history
      plus those still waiting to be committed. */
  lemma VersionCountsAppliedEvents<S>(regs: seq<Registration<S>>, init: S, history: seq<Option<Event>>, es: seq<Event>)
    requires FromHistory(regs, init, Some(history)).Success?
    requires ApplyAll(FromHistory(regs, init, Some(history)).value, es).Success?
    ensures ApplyAll(FromHistory(regs, init, Some(history)).value, es).value.version
            == |history| + |ApplyAll(FromHistory(regs, init, Some(history)).value, es).value.uncommitted|
  {
    ApplyAllQueuesInOrder(FromHistory(regs, init, Some(history)).value, es);
  }
}

=== FILE: attribute_method.dfy ===
/** Attribute-based command handler discovery: a method marked
    `[CommandHandler]` is validated and classified into a descriptor (command
    type, async or not, cancellable or not), and a descriptor picks the
    delegate builder for its shape. Reflection is replaced by an abstract
    method signature. */
module AttributeMethod {
  import opened Base

  /** The type of one method parameter. `NonClassParam` is any type whose
      `IsClass` is false: structs, enums and interfaces alike. `TokenParam` is
      `CancellationToken` (a struct, so never taken for the command). */
  datatype ParamType = ClassParam(classType: TypeId) | NonClassParam(otherType: TypeId) | TokenParam

  datatype ReturnType = ReturnsTask | ReturnsVoid | ReturnsOther(returnType: TypeId)

  /** What reflection tells about a method: declaring type, whether it carries
      `[CommandHandler]`, parameters, return type, and whether the compiler
      made it an async state machine (`async void` or `async Task`). */
  datatype MethodSig = MethodSig(
    declaringType: TypeId,
    marked: bool,
    parameters: seq<ParamType>,
    returnType: ReturnType,
    asyncStateMachine: bool)

  /** A `CommandHandlerAttributeMethod`. */
  datatype Descriptor = Descriptor(
    signature: MethodSig,
    declaringType: TypeId,
    commandType: TypeId,
    isAsync: bool,
    supportsCancellation: bool)

  /** `FirstOrDefault(p => p.ParameterType.IsClass)`: the first class-typed
      parameter's type, if any. */
  function FirstClassParam(ps: seq<ParamType>): (r: Option<TypeId>)
    ensures r.None? <==> forall i :: 0 <= i < |ps| ==> !ps[i].ClassParam?
    ensures r.Some? ==> exists i :: 0 <= i < |ps| && ps[i] == ClassParam(r.value)
                                    && forall j :: 0 <= j < i ==> !ps[j].ClassParam?
    decreases |ps|
  {
    if |ps| == 0 then None
    else if ps[0].ClassParam? then Some(ps[0].classType)
    else
      var rest := FirstClassParam(ps[1..]);
      assert forall i :: 0 <= i < |ps| - 1 ==> ps[1..][i] == ps[i + 1];
      rest
  }

  predicate HasTokenParam(ps: seq<ParamType>)
  {
    exists i :: 0 <= i < |ps| && ps[i] == TokenParam
  }

  /** `FromMethodInfo(methodInfo)`: the checks run in this order: null, not
      marked, no class-typed parameter, return type neither `Task` nor `void`,
      `void` with a token parameter. The async-state-machine flag is not
      looked at, so an `async void` method passes as a sync handler. */
  function FromMethodInfo(m: Option<MethodSig>): (r: Result<Descriptor>)
    ensures m.None? ==> r == Failure(ArgumentNull("methodInfo"))
    ensures m.Some? && !m.value.marked ==> r == Failure(InvalidOperation(NotMarkedAsHandler, None))
    ensures m.Some? && m.value.marked && FirstClassParam(m.value.parameters).None? ==>
              r == Failure(InvalidOperation(NoClassParameter, None))
    ensures m.Some? && m.value.marked && FirstClassParam(m.value.parameters).Some? && m.value.returnType.ReturnsOther? ==>
              r == Failure(InvalidOperation(InvalidReturnType, None))
    ensures r.Success? <==> && m.Some? && m.value.marked && FirstClassParam(m.value.parameters).Some?
                            && (m.value.returnType.ReturnsTask?
                                || (m.value.returnType.ReturnsVoid? && !HasTokenParam(m.value.parameters)))
    ensures (r.Failure? && m.Some? && m.value.marked && FirstClassParam(m.value.parameters).Some?
             && m.value.returnType.ReturnsVoid?) ==> r.error == InvalidOperation(SyncWithCancellation, None)
    ensures r.Success? ==> && r.value.signature == m.value
                           && r.value.declaringType == m.value.declaringType
                           && Some(r.value.commandType) == FirstClassParam(m.value.parameters)
                           && (r.value.isAsync <==> m.value.returnType == ReturnsTask)
                           && (r.value.supportsCancellation <==> HasTokenParam(m.value.parameters))
  {
    match m
    case None => Failure(ArgumentNull("methodInfo"))
    case Some(mi) =>
      if !mi.marked then Failure(InvalidOperation(NotMarkedAsHandler, None))
      else
        match FirstClassParam(mi.parameters)
        case None => Failure(InvalidOperation(NoClassParameter, None))
        case Some(commandType) =>
          if mi.returnType.ReturnsOther? then Failure(InvalidOperation(InvalidReturnType, None))
          else
            var isAsync := mi.returnType.ReturnsTask?;
            var supportsCancellation := HasTokenParam(mi.parameters);
            if !isAsync && supportsCancellation then Failure(InvalidOperation(SyncWithCancellation, None))
            else Success(Descriptor(mi, mi.declaringType, commandType, isAsync, supportsCancellation))
  }

  /** An `async void` handler taking a command and no token is accepted and
      classified as synchronous. */
  lemma AsyncVoidIsAcceptedAsSync(declaringType: TypeId, commandType: TypeId)
    ensures var m := MethodSig(declaringType, true, [ClassParam(commandType)], ReturnsVoid, true);
            FromMethodInfo(Some(m)).Success? && !FromMethodInfo(Some(m)).value.isAsync
  {
    var ps := [ClassParam(commandType)];
    assert !HasTokenParam(ps);
  }

  /** A `void` handler that takes a `CancellationToken` is refused. */
  lemma SyncWithTokenIsRefused(declaringType: TypeId, commandType: TypeId)
    ensures var m := MethodSig(declaringType, true, [ClassParam(commandType), TokenParam], ReturnsVoid, false);
            FromMethodInfo(Some(m)) == Failure(InvalidOperation(SyncWithCancellation, None))
  {
    var ps := [ClassParam(commandType), TokenParam];
    assert ps[1] == TokenParam;
  }

  /** The three delegate builders of `CreateMessageHandlerDelegate`. */
  datatype Builder = CancellableAsync | NonCancellableAsync | WrappedSync

  /** The delegate shape a builder binds the method to. */
  predicate Fits(b: Builder, isAsync: bool, supportsCancellation: bool)
  {
    && (b == CancellableAsync <==> isAsync && supportsCancellation)
    && (b == NonCancellableAsync <==> isAsync && !supportsCancellation)
    && (b == WrappedSync <==> !isAsync)
  }

  /** `CreateMessageHandlerDelegate<TAttributedObject, TCommand>(factory)`:
      rejects a null factory and an object type other than the declaring
      type, then binds with the one builder that fits the descriptor.
      `bindFault` is what `MethodInfo.CreateDelegate` throws for a builder, if
      anything; such a fault is wrapped in `InvalidOperationException`. The
      result names the builder used. */
  function CreateMessageHandlerDelegate<F>(d: Descriptor, attributedType: TypeId, factory: Option<F>,
                                           bindFault: Builder -> Option<Exception>): (r: Result<Builder>)
    ensures factory.None? ==> r == Failure(ArgumentNull("attributedObjectFactory"))
    ensures factory.Some? && attributedType != d.declaringType ==> r == Failure(Argument(DeclaringTypeMismatch))
    ensures r.Success? ==> && factory.Some? && attributedType == d.declaringType
                           && Fits(r.value, d.isAsync, d.supportsCancellation) && bindFault(r.value).None?
    ensures r.Failure? && factory.Some? && attributedType == d.declaringType ==>
              exists b :: Fits(b, d.isAsync, d.supportsCancellation) && bindFault(b).Some?
                          && r.error == InvalidOperation(DelegateBindingFailed, bindFault(b))
  {
    if factory.None? then Failure(ArgumentNull("attributedObjectFactory"))
    else if attributedType != d.declaringType then Failure(Argument(DeclaringTypeMismatch))
    else
      var b := if d.isAsync then (if d.supportsCancellation then CancellableAsync else NonCancellableAsync)
               else WrappedSync;
      match bindFault(b)
      case Some(e) => Failure(InvalidOperation(DelegateBindingFailed, Some(e)))
      case None => Success(b)
  }

  /** At most one builder fits a descriptor; none fits a sync descriptor
      that takes a token. */
  lemma AtMostOneBuilderFits(isAsync: bool, supportsCancellation: bool, b1: Builder, b2: Builder)
    requires Fits(b1, isAsync, supportsCancellation) && Fits(b2, isAsync, supportsCancellation)
    ensures b1 == b2
  {
  }

  /** For a descriptor produced by `FromMethodInfo`, the builder chosen
      matches the method's signature: the sync wrapper only for `void`
      methods without a token, the cancellable one only for `Task` methods
      that take a token. */
  lemma BuilderMatchesSignature(m: MethodSig, b: Builder)
    requires FromMethodInfo(Some(m)).Success?
    requires Fits(b, FromMethodInfo(Some(m)).value.isAsync, FromMethodInfo(Some(m)).value.supportsCancellation)
    ensures b == WrappedSync ==> m.returnType == ReturnsVoid && !HasTokenParam(m.parameters)
    ensures b == CancellableAsync ==> m.returnType == ReturnsTask && HasTokenParam(m.parameters)
    ensures b == NonCancellableAsync ==> m.returnType == ReturnsTask && !HasTokenParam(m.parameters)
  {
  }

  /** `Select(m => FromMethodInfo(m))` enumerated to the end: every method
      is described, in order, and the first invalid one aborts the scan. */
  function DescribeAll(ms: seq<Option<MethodSig>>): (r: Result<seq<Descriptor>>)
    ensures r.Success? <==> forall i :: 0 <= i < |ms| ==> FromMethodInfo(ms[i]).Success?
    ensures r.Success? ==> |r.value| == |ms| && forall i :: 0 <= i < |ms| ==> r.value[i] == FromMethodInfo(ms[i]).value
    ensures r.Failure? ==> exists i :: 0 <= i < |ms| && FromMethodInfo(ms[i]) == Failure(r.error)
                                       && forall j :: 0 <= j < i ==> FromMethodInfo(ms[j]).Success?
    decreases |ms|
  {
    if |ms| == 0 then Success([])
    else
      match FromMethodInfo(ms[0])
      case Failure(e) => Failure(e)
      case Success(d) =>
        var rest := DescribeAll(ms[1..]);
        assert forall i :: 0 <= i < |ms| - 1 ==> ms[1..][i] == ms[i + 1];
        match rest
        case Failure(e) => Failure(e)
        case Success(ds) => Success([d] + ds)
  }

  /** `DescribeAll`'s success condition and its descriptors, as one fact. */
  lemma DescribeAllSucceeds(ms: seq<Option<MethodSig>>)
    ensures FromMethodInfos(Some(ms)).Success? <==> forall i :: 0 <= i < |ms| ==> FromMethodInfo(ms[i]).Success?
    ensures FromMethodInfos(Some(ms)).Success? ==> Describes(FromMethodInfos(Some(ms)).value, ms)
  {
    var r := FromMethodInfos(Some(ms));
    assert r == DescribeAll(ms);
    if forall i :: 0 <= i < |ms| ==> FromMethodInfo(ms[i]).Success? {
      assert r.Success?;
    }
  }

  /** `FromMethodInfos(methodInfos)`. */
  function FromMethodInfos(ms: Option<seq<Option<MethodSig>>>): (r: Result<seq<Descriptor>>)
    ensures ms.None? ==> r == Failure(ArgumentNull("methodInfos"))
    ensures ms.Some? ==> r == DescribeAll(ms.value)
  {
    match ms
    case None => Failure(ArgumentNull("methodInfos"))
    case Some(s) => DescribeAll(s)
  }

  /** `ds` holds, one to one and in order, the descriptors of the method
      infos `ms`. */
  predicate Describes(ds: seq<Descriptor>, ms: seq<Option<MethodSig>>)
  {
    |ds| == |ms| && forall i :: 0 <= i < |ds| ==> FromMethodInfo(ms[i]) == Success(ds[i])
  }

  lemma DescribesAppend(d1: seq<Descriptor>, m1: seq<Option<MethodSig>>, d2: seq<Descriptor>, m2: seq<Option<MethodSig>>)
    requires Describes(d1, m1) && Describes(d2, m2)
    ensures Describes(d1 + d2, m1 + m2)
  {
    assert forall i :: |d1| <= i < |d1| + |d2| ==> (d1 + d2)[i] == d2[i - |d1|] && (m1 + m2)[i] == m2[i - |d1|];
  }

  /** The methods carrying `[CommandHandler]`, in order. */
  function Marked(ms: seq<MethodSig>): (r: seq<Option<MethodSig>>)
    ensures forall i :: 0 <= i < |r| ==> r[i].Some? && r[i].value.marked && r[i].value in ms
    ensures forall i :: 0 <= i < |ms| && ms[i].marked ==> Some(ms[i]) in r
    ensures |r| <= |ms|
    decreases |ms|
  {
    if |ms| == 0 then []
    else (if ms[0].marked then [Some(ms[0])] else []) + Marked(ms[1..])
  }

  /** The attribute filter looks at each method on its own: filtering two
      method lists one after the other is filtering their concatenation. */
  lemma {:induction false} MarkedAppend(ms1: seq<MethodSig>, ms2: seq<MethodSig>)
    ensures Marked(ms1 + ms2) == Marked(ms1) + Marked(ms2)
    decreases |ms1|
  {
    if |ms1| > 0 {
      assert (ms1 + ms2)[1..] == ms1[1..] + ms2;
      MarkedAppend(ms1[1..], ms2);
    } else {
      assert ms1 + ms2 == ms2;
    }
  }

  /** What reflection lists for a type: `GetRuntimeMethods()` (inherited
      ones included) and `DeclaredMethods`. */
  datatype TypeInfo = TypeInfo(runtimeMethods: seq<MethodSig>, declaredMethods: seq<MethodSig>)

  /** `FromType(type)`. */
  function FromType(t: Option<TypeInfo>): (r: Result<seq<Descriptor>>)
    ensures t.None? ==> r == Failure(ArgumentNull("type"))
    ensures t.Some? ==> (r.Success? <==> forall i :: 0 <= i < |Marked(t.value.runtimeMethods)| ==>
                                           FromMethodInfo(Marked(t.value.runtimeMethods)[i]).Success?)
    ensures t.Some? && r.Success? ==> |r.value| == |Marked(t.value.runtimeMethods)|
    ensures t.Some? && r.Success? ==> forall i :: 0 <= i < |r.value| ==>
              Some(r.value[i].signature) == Marked(t.value.runtimeMethods)[i]
    ensures t.Some? && r.Success? ==> Describes(r.value, Marked(t.value.runtimeMethods))
  {
    match t
    case None => Failure(ArgumentNull("type"))
    case Some(ti) =>
      var ms := Marked(ti.runtimeMethods);
      var r := FromMethodInfos(Some(ms));
      DescribeAllSucceeds(ms);
      assert ms == Marked(t.value.runtimeMethods);
      assert r.Success? <==> forall i :: 0 <= i < |Marked(t.value.runtimeMethods)| ==>
                               FromMethodInfo(Marked(t.value.runtimeMethods)[i]).Success?;
      r
  }

  /** The concatenation of a list of lists, folded from the end. */
  function Concat<T>(xss: seq<seq<T>>): seq<T>
    decreases |xss|
  {
    if |xss| == 0 then [] else Concat(xss[..|xss| - 1]) + xss[|xss| - 1]
  }

  lemma {:induction false} ConcatCons<T>(x: seq<T>, xss: seq<seq<T>>)
    ensures Concat([x] + xss) == x + Concat(xss)
    decreases |xss|
  {
    var n := |xss|;
    if n == 0 {
      assert ([x] + xss)[..0] == [];
    } else {
      assert ([x] + xss)[..n] == [x] + xss[..n - 1];
      ConcatCons(x, xss[..n - 1]);
    }
  }

  /** The descriptor lists of successful scans; a failed scan contributes
      nothing. */
  function Values(rs: seq<Result<seq<Descriptor>>>): (r: seq<seq<Descriptor>>)
    ensures |r| == |rs|
    ensures forall i :: 0 <= i < |rs| && rs[i].Success? ==> r[i] == rs[i].value
  {
    seq(|rs|, i requires 0 <= i < |rs| => if rs[i].Success? then rs[i].value else [])
  }

  lemma ValuesCons(rs: seq<Result<seq<Descriptor>>>)
    requires |rs| > 0 && forall i :: 0 <= i < |rs| ==> rs[i].Success?
    ensures Values(rs) == [rs[0].value] + Values(rs[1..])
  {
    assert forall i :: 0 <= i < |rs| - 1 ==> rs[1..][i] == rs[i + 1];
  }

  /** `SelectMany` over per-item scans enumerated to the end: the
      concatenation when all succeed, else the first failure. */
  function Flatten(rs: seq<Result<seq<Descriptor>>>): (r: Result<seq<Descriptor>>)
    ensures r.Success? <==> forall i :: 0 <= i < |rs| ==> rs[i].Success?
    ensures r.Success? ==> r.value == Concat(Values(rs))
    ensures r.Failure? ==> exists i :: 0 <= i < |rs| && rs[i] == Failure(r.error)
                                       && forall j :: 0 <= j < i ==> rs[j].Success?
    decreases |rs|
  {
    if |rs| == 0 then Success([])
    else
      match rs[0]
      case Failure(e) => Failure(e)
      case Success(ds) =>
        var rest := Flatten(rs[1..]);
        assert forall i :: 0 <= i < |rs| - 1 ==> rs[1..][i] == rs[i + 1];
        match rest
        case Failure(e) => Failure(e)
        case Success(more) =>
          ValuesCons(rs);
          ConcatCons(ds, Values(rs[1..]));
          Success(ds + more)
  }

  /** Successful scans that each describe their own list of method infos
      describe, together, the concatenation of those lists. */
  lemma {:induction false} DescribesConcat(rs: seq<Result<seq<Descriptor>>>, mss: seq<seq<Option<MethodSig>>>)
    requires |rs| == |mss|
    requires forall i :: 0 <= i < |rs| ==> rs[i].Success? && Describes(rs[i].value, mss[i])
    ensures Describes(Concat(Values(rs)), Concat(mss))
    decreases |rs|
  {
    var n := |rs|;
    if n > 0 {
      assert Values(rs)[..n - 1] == Values(rs[..n - 1]);
      DescribesConcat(rs[..n - 1], mss[..n - 1]);
      DescribesAppend(Concat(Values(rs[..n - 1])), Concat(mss[..n - 1]), rs[n - 1].value, mss[n - 1]);
    }
  }

  /** `FromTypes(types)`. */
  function FromTypes(ts: Option<seq<Option<TypeInfo>>>): (r: Result<seq<Descriptor>>)
    ensures ts.None? ==> r == Failure(ArgumentNull("types"))
    ensures ts.Some? ==> (r.Success? <==> forall i :: 0 <= i < |ts.value| ==> FromType(ts.value[i]).Success?)
  {
    match ts
    case None => Failure(ArgumentNull("types"))
    case Some(s) => Flatten(Scans(s))
  }

  function Scans(ts: seq<Option<TypeInfo>>): (r: seq<Result<seq<Descriptor>>>)
    ensures |r| == |ts|
    ensures forall i :: 0 <= i < |ts| ==> r[i] == FromType(ts[i])
  {
    seq(|ts|, i requires 0 <= i < |ts| => FromType(ts[i]))
  }

  /** The marked runtime methods of each type, type by type. */
  function MarkedRuntime(ts: seq<Option<TypeInfo>>): (r: seq<seq<Option<MethodSig>>>)
    ensures |r| == |ts|
    ensures forall i :: 0 <= i < |ts| && ts[i].Some? ==> r[i] == Marked(ts[i].value.runtimeMethods)
  {
    seq(|ts|, i requires 0 <= i < |ts| => if ts[i].Some? then Marked(ts[i].value.runtimeMethods) else [])
  }

  /** A successful scan of several types yields, in order, the descriptor of
      every marked runtime method of the first type, then of the second, and
      so on. */
  lemma {:induction false} FromTypesOnePerMarkedMethod(ts: seq<Option<TypeInfo>>)
    requires FromTypes(Some(ts)).Success?
    ensures Describes(FromTypes(Some(ts)).value, Concat(MarkedRuntime(ts)))
  {
    DescribesConcat(Scans(ts), MarkedRuntime(ts));
  }

  /** The marked declared methods of each of an assembly's types. */
  function DeclaredPerType(types: seq<TypeInfo>): (r: seq<seq<Option<MethodSig>>>)
    ensures |r| == |types|
    ensures forall i :: 0 <= i < |types| ==> r[i] == Marked(types[i].declaredMethods)
  {
    seq(|types|, i requires 0 <= i < |types| => Marked(types[i].declaredMethods))
  }

  lemma DeclaredPerTypeCons(types: seq<TypeInfo>)
    requires |types| > 0
    ensures Concat(DeclaredPerType(types)) == Marked(types[0].declaredMethods) + Concat(DeclaredPerType(types[1..]))
  {
    assert DeclaredPerType(types) == [Marked(types[0].declaredMethods)] + DeclaredPerType(types[1..]);
    ConcatCons(Marked(types[0].declaredMethods), DeclaredPerType(types[1..]));
  }

  /** The marked declared methods of an assembly's types, type by type. */
  function MarkedDeclared(types: seq<TypeInfo>): (r: seq<Option<MethodSig>>)
    ensures r == Concat(DeclaredPerType(types))
    ensures forall i :: 0 <= i < |r| ==> r[i].Some? && r[i].value.marked
    ensures forall i :: 0 <= i < |r| ==> exists k :: 0 <= k < |types| && r[i].value in types[k].declaredMethods
    decreases |types|
  {
    if |types| == 0 then []
    else
      var head := Marked(types[0].declaredMethods);
      var rest := MarkedDeclared(types[1..]);
      DeclaredPerTypeCons(types);
      MarkedDeclaredCons(types, head, rest);
      head + rest
  }

  /** The per-element facts of `MarkedDeclared`, carried over one more type. */
  lemma MarkedDeclaredCons(types: seq<TypeInfo>, head: seq<Option<MethodSig>>, rest: seq<Option<MethodSig>>)
    requires |types| > 0 && head == Marked(types[0].declaredMethods)
    requires forall i :: 0 <= i < |rest| ==> rest[i].Some? && rest[i].value.marked
    requires forall i :: 0 <= i < |rest| ==> exists k :: 0 <= k < |types| - 1 && rest[i].value in types[1..][k].declaredMethods
    ensures forall i :: 0 <= i < |head + rest| ==> (head + rest)[i].Some? && (head + rest)[i].value.marked
    ensures forall i :: 0 <= i < |head + rest| ==> exists k :: 0 <= k < |types| && (head + rest)[i].value in types[k].declaredMethods
  {
    forall i | 0 <= i < |head + rest|
      ensures (head + rest)[i].Some? && (head + rest)[i].value.marked
      ensures exists k :: 0 <= k < |types| && (head + rest)[i].value in types[k].declaredMethods
    {
      if i < |head| {
        assert (head + rest)[i] == head[i];
        assert head[i].value in types[0].declaredMethods;
      } else {
        assert (head + rest)[i] == rest[i - |head|];
        var k :| 0 <= k < |types| - 1 && rest[i - |head|].value in types[1..][k].declaredMethods;
        assert types[1..][k] == types[k + 1];
      }
    }
  }

  /** `FromAssembly(assembly)`: the marked declared methods of every defined
      type, in order. */
  function FromAssembly(a: Option<seq<TypeInfo>>): (r: Result<seq<Descriptor>>)
    ensures a.None? ==> r == Failure(ArgumentNull("commandHandlerAssembly"))
    ensures a.Some? ==> (r.Success? <==> forall i :: 0 <= i < |MarkedDeclared(a.value)| ==>
                                           FromMethodInfo(MarkedDeclared(a.value)[i]).Success?)
    ensures a.Some? && r.Success? ==> Describes(r.value, MarkedDeclared(a.value))
  {
    match a
    case None => Failure(ArgumentNull("commandHandlerAssembly"))
    case Some(types) =>
      var ms := MarkedDeclared(types);
      var r := FromMethodInfos(Some(ms));
      DescribeAllSucceeds(ms);
      assert ms == MarkedDeclared(a.value);
      assert r.Success? <==> forall i :: 0 <= i < |MarkedDeclared(a.value)| ==>
                               FromMethodInfo(MarkedDeclared(a.value)[i]).Success?;
      r
  }

  /** `FromAssemblies(assemblies)`. */
  function FromAssemblies(assemblies: Option<seq<Option<seq<TypeInfo>>>>): (r: Result<seq<Descriptor>>)
    ensures assemblies.None? ==> r == Failure(ArgumentNull("commandHandlerAssemblies"))
    ensures assemblies.Some? ==>
              (r.Success? <==> forall i :: 0 <= i < |assemblies.value| ==> FromAssembly(assemblies.value[i]).Success?)
  {
    match assemblies
    case None => Failure(ArgumentNull("commandHandlerAssemblies"))
    case Some(s) => Flatten(AssemblyScans(s))
  }

  function AssemblyScans(assemblies: seq<Option<seq<TypeInfo>>>): (r: seq<Result<seq<Descriptor>>>)
    ensures |r| == |assemblies|
    ensures forall i :: 0 <= i < |assemblies| ==> r[i] == FromAssembly(assemblies[i])
  {
    seq(|assemblies|, i requires 0 <= i < |assemblies| => FromAssembly(assemblies[i]))
  }

  /** The marked declared methods of each assembly, assembly by assembly. */
  function MarkedDeclaredAll(assemblies: seq<Option<seq<TypeInfo>>>): (r: seq<seq<Option<MethodSig>>>)
    ensures |r| == |assemblies|
    ensures forall i :: 0 <= i < |assemblies| && assemblies[i].Some? ==> r[i] == MarkedDeclared(assemblies[i].value)
  {
    seq(|assemblies|, i requires 0 <= i < |assemblies| =>
      if assemblies[i].Some? then MarkedDeclared(assemblies[i].value) else [])
  }

  /** A successful scan of several assemblies yields, in order, the
      descriptor of every marked declared method of every type of the first
      assembly, then of the second, and so on. */
  lemma {:induction false} FromAssembliesOnePerMarkedMethod(assemblies: seq<Option<seq<TypeInfo>>>)
    requires FromAssemblies(Some(assemblies)).Success?
    ensures Describes(FromAssemblies(Some(assemblies)).value, Concat(MarkedDeclaredAll(assemblies)))
  {
    DescribesConcat(AssemblyScans(assemblies), MarkedDeclaredAll(assemblies));
  }
}

=== FILE: base.dfy ===
/** Shared vocabulary of the model: nullable references, messages, the
    exceptions the framework throws, task outcomes and the answers of opaque
    collaborators (containers, providers, resolvers). */
module Base {

  /** Runtime type of a message (command, query or domain event). */
  type TypeId = nat

  /** Aggregate identity (a Guid in the source). */
  type Id = nat

  /** `Guid.Empty`. */
  const EmptyId: Id := 0

  /** A cancellation token; `NoToken` is `default(CancellationToken)`. */
  datatype Token = NoToken | Token(source: nat)

  /** The application context at the moment a handler factory runs (a DI
      scope, the time of the call, ...). Factories are functions of it, so a
      factory invoked at two different moments may produce different handlers. */
  type Scope = nat

  /** The value a query handler produces. */
  type Value = int

  /** A command instance: its runtime type and an opaque payload. */
  datatype Command = Command(commandType: TypeId, payload: nat)

  /** A query instance: its runtime type and an opaque payload. */
  datatype Query = Query(queryType: TypeId, payload: nat)

  /** A nullable reference: `None` is `null`. */
  datatype Option<+T> = None | Some(value: T)

  /** What the message of a thrown exception is about. */
  datatype Reason =
    | DuplicateQueryHandler
    | DuplicateApplier
    | NullHandlerInstance
    | NotMarkedAsHandler
    | NoClassParameter
    | InvalidReturnType
    | SyncWithCancellation
    | DeclaringTypeMismatch
    | DelegateBindingFailed

  /** The exceptions of the modelled code. `External` is an exception thrown by
      code outside the framework (a handler, an applier, a container, a store
      backend), identified by an opaque code. */
  datatype Exception =
    | ArgumentNull(parameter: string)
    | Argument(reason: Reason)
    | NullReference
    | InvalidOperation(reason: Reason, inner: Option<Exception>)
    | DomainEventNotApplied(eventType: TypeId, inner: Option<Exception>)
    | QueryNotHandled(queryType: TypeId)
    | CommandNotHandled(commandType: TypeId)
    | NoCommandHandlerResolved(commandType: TypeId, inner: Option<Exception>)
    | External(code: nat)

  /** A call that either returns a value or throws. */
  datatype Result<+T> = Success(value: T) | Failure(error: Exception)

  /** The final state of a `Task`: ran to completion, faulted or cancelled. */
  datatype Outcome<+T> = Ok(value: T) | Fault(error: Exception) | Cancelled

  /** What `IContainerAdapter.Resolve<T>()` or a provider's lookup does: return
      an instance, return null, or throw. */
  datatype Resolved<+H> = Instance(handler: H) | Null | Threw(error: Exception)
}

=== FILE: command_dispatchers.dfy ===
/** The single-handler command dispatcher: reject a null command, resolve one
    delegate for the command's static type, invoke it once with the caller's
    token. */
module CommandDispatcher {
  import opened Base
  import ContainerCommandResolver

  type CommandDelegate = ContainerCommandResolver.CommandDelegate

  /** `ICommandHandlerResolver.ResolveCommandHandler<TCommand>()`: a delegate,
      null, or an exception. */
  type Resolver = TypeId -> Resolved<CommandDelegate>

  /** `DispatchAsync<TCommand>(command, token)` for the static type
      `commandType`. `Failure` is an exception thrown before any task exists;
      `Success(o)` is the returned task. */
  function DispatchAsync(resolver: Resolver, commandType: TypeId, command: Option<Command>, token: Token)
    : (r: Result<Outcome<()>>)
    ensures command.None? ==> r == Failure(ArgumentNull("command"))
    ensures command.Some? && resolver(commandType).Threw? ==> r == Failure(resolver(commandType).error)
    ensures command.Some? && resolver(commandType).Null? ==> r == Failure(CommandNotHandled(commandType))
    ensures command.Some? && resolver(commandType).Instance? ==>
              r == Success(resolver(commandType).handler(command.value, token))
  {
    match command
    case None => Failure(ArgumentNull("command"))
    case Some(c) =>
      match resolver(commandType)
      case Threw(e) => Failure(e)
      case Null => Failure(CommandNotHandled(commandType))
      case Instance(d) => Success(d(c, token))
  }

  /** Waiting for a task, or for the exception thrown instead of one. */
  function Await(r: Result<Outcome<()>>): (o: Outcome<()>)
    ensures r.Failure? ==> o == Fault(r.error)
    ensures r.Success? ==> o == r.value
    ensures o.Ok? <==> r.Success? && r.value.Ok?
  {
    match r
    case Failure(e) => Fault(e)
    case Success(t) => t
  }

  /** `Dispatch<TCommand>(command)`: `DispatchAsync` with the default token,
      waited to completion. */
  function Dispatch(resolver: Resolver, commandType: TypeId, command: Option<Command>): (o: Outcome<()>)
    ensures command.None? ==> o == Fault(ArgumentNull("command"))
    ensures command.Some? && resolver(commandType).Null? ==> o == Fault(CommandNotHandled(commandType))
    ensures command.Some? && resolver(commandType).Threw? ==> o == Fault(resolver(commandType).error)
    ensures command.Some? && resolver(commandType).Instance? ==> o == resolver(commandType).handler(command.value, NoToken)
  {
    Await(DispatchAsync(resolver, commandType, command, NoToken))
  }

  /** A null command is rejected without consulting the resolver. */
  lemma NullCommandSkipsResolver(r1: Resolver, r2: Resolver, commandType: TypeId, token: Token)
    ensures DispatchAsync(r1, commandType, None, token) == DispatchAsync(r2, commandType, None, token)
  {
  }

  /** A resolver's answer as the dispatcher sees it: it never answers null. */
  function AsResolved(r: Result<CommandDelegate>): (answer: Resolved<CommandDelegate>)
    ensures !answer.Null?
    ensures r.Success? <==> answer.Instance?
    ensures r.Success? ==> answer.handler == r.value
    ensures r.Failure? ==> answer.error == r.error
  {
    match r
    case Success(d) => Instance(d)
    case Failure(e) => Threw(e)
  }

  /** The container-backed resolver, as written, plugged into the dispatcher. */
  function FromContainer(c: ContainerCommandResolver.CommandContainer): (resolver: Resolver)
    ensures forall t :: resolver(t) == AsResolved(ContainerCommandResolver.Resolve(c, t))
    ensures forall t :: !resolver(t).Null?
    ensures forall t :: c.resolveAsync(t).Instance? ==> resolver(t) == Instance(c.resolveAsync(t).handler)
    ensures forall t :: c.resolveAsync(t).Null? ==>
              resolver(t) == Threw(NoCommandHandlerResolved(t, Some(NoCommandHandlerResolved(t, None))))
    ensures forall t :: c.resolveAsync(t).Threw? ==>
              resolver(t) == Threw(NoCommandHandlerResolved(t, Some(c.resolveAsync(t).error)))
  {
    t => AsResolved(ContainerCommandResolver.Resolve(c, t))
  }

  /** The corrected container-backed resolver plugged into the dispatcher. */
  function FromContainerIntended(c: ContainerCommandResolver.CommandContainer): (resolver: Resolver)
    ensures forall t :: resolver(t) == AsResolved(ContainerCommandResolver.ResolveIntended(c, t))
    ensures forall t :: !resolver(t).Null?
    ensures forall t :: c.resolveAsync(t).Instance? ==> resolver(t) == Instance(c.resolveAsync(t).handler)
    ensures forall t :: c.resolveAsync(t).Null? ==> resolver(t) == Threw(NoCommandHandlerResolved(t, None))
    ensures forall t :: c.resolveAsync(t).Threw? ==>
              resolver(t) == Threw(NoCommandHandlerResolved(t, Some(c.resolveAsync(t).error)))
  {
    t => AsResolved(ContainerCommandResolver.ResolveIntended(c, t))
  }

  /** Dispatching through a container that has no async handler for the
      command's type never reaches `CommandNotHandledException`: it throws the
      resolver's `NoCommandHandlerResolvedException` unchanged, which as
      written wraps a second one naming the same type. */
  lemma ContainerMissIsReported(c: ContainerCommandResolver.CommandContainer, commandType: TypeId, command: Command, token: Token)
    requires c.resolveAsync(commandType).Null?
    ensures DispatchAsync(FromContainer(c), commandType, Some(command), token)
            == Failure(NoCommandHandlerResolved(commandType, Some(NoCommandHandlerResolved(commandType, None))))
  {
  }

  /** With the corrected resolver, the same dispatch throws a single
      `NoCommandHandlerResolvedException` without an inner exception. */
  lemma ContainerMissIsReportedAsIntended(c: ContainerCommandResolver.CommandContainer, commandType: TypeId, command: Command, token: Token)
    requires c.resolveAsync(commandType).Null?
    ensures DispatchAsync(FromContainerIntended(c), commandType, Some(command), token)
            == Failure(NoCommandHandlerResolved(commandType, None))
  {
  }
}

/** The first-generation command dispatcher: every handler registered for the
    command's runtime type is started, in order, and the call waits for all of
    them. */
module LegacyCommandDispatcher {
  import opened Base

  /** `HandleCommandDelegate`: a handler invocation returns a task. */
  type Handler = Command -> Outcome<()>

  /** `CommandHandlerRegistration.GetRegisteredCommandHandlers(commandType)`. */
  type Handlers = TypeId -> seq<Handler>

  /** The first faulted task's exception, if any task faulted. */
  function FirstFault(tasks: seq<Outcome<()>>): (r: Option<Exception>)
    ensures r.None? <==> forall i :: 0 <= i < |tasks| ==> !tasks[i].Fault?
    ensures r.Some? ==> exists i :: 0 <= i < |tasks| && tasks[i] == Fault(r.value)
                                    && forall j :: 0 <= j < i ==> !tasks[j].Fault?
    decreases |tasks|
  {
    if |tasks| == 0 then None
    else if tasks[0].Fault? then Some(tasks[0].error)
    else
      var rest := FirstFault(tasks[1..]);
      assert forall i :: 0 <= i < |tasks| - 1 ==> tasks[1..][i] == tasks[i + 1];
      rest
  }

  /** `Task.WhenAll(tasks).GetAwaiter().GetResult()`: faulted if any task
      faulted (rethrowing the first fault), else cancelled if any was
      cancelled, else completed. */
  function WhenAll(tasks: seq<Outcome<()>>): (r: Outcome<()>)
    ensures r.Ok? <==> forall i :: 0 <= i < |tasks| ==> tasks[i].Ok?
    ensures r.Fault? <==> exists i :: 0 <= i < |tasks| && tasks[i].Fault?
    ensures r.Fault? ==> exists i :: 0 <= i < |tasks| && tasks[i] == r && forall j :: 0 <= j < i ==> !tasks[j].Fault?
  {
    match FirstFault(tasks)
    case Some(e) => Fault(e)
    case None => if exists i :: 0 <= i < |tasks| && tasks[i].Cancelled? then Cancelled else Ok(())
  }

  /** `CommandDispatcher.Dispatch(command)`: `started` holds the task of each
      handler, in enumeration order, and `r` is what the caller observes after
      waiting for all of them. A null command fails on `GetType()` before any
      handler starts. */
  method Dispatch(handlers: Handlers, command: Option<Command>) returns (started: seq<Outcome<()>>, r: Outcome<()>)
    ensures command.None? ==> started == [] && r == Fault(NullReference)
    ensures command.Some? ==> |started| == |handlers(command.value.commandType)|
    ensures command.Some? ==> forall i :: 0 <= i < |started| ==>
              started[i] == handlers(command.value.commandType)[i](command.value)
    ensures command.Some? ==> r == WhenAll(started)
  {
    if command.None? {
      return [], Fault(NullReference);
    }
    var c := command.value;
    var hs := handlers(c.commandType);
    started := [];
    var i := 0;
    while i < |hs|
      invariant 0 <= i <= |hs|
      invariant |started| == i
      invariant forall j :: 0 <= j < i ==> started[j] == hs[j](c)
    {
      started := started + [hs[i](c)];
      i := i + 1;
    }
    r := WhenAll(started);
  }

  /** With no handler registered for the type, dispatch completes without
      effect or error. */
  lemma NoHandlersIsNoOp()
    ensures WhenAll([]) == Ok(())
  {
  }

  /** Waiting on the started tasks, the caller sees the first fault in
      enumeration order, even when earlier handlers were cancelled and later
      ones faulted too. */
  lemma FirstFaultSurfaces(tasks: seq<Outcome<()>>, k: nat)
    requires k < |tasks| && tasks[k].Fault?
    requires forall j :: 0 <= j < k ==> !tasks[j].Fault?
    ensures WhenAll(tasks) == tasks[k]
  {
  }
}

=== FILE: composite_query_provider.dfy ===
/** The composite query handler provider: asks its providers in order and
    returns the first non-null delegate. */
module CompositeQueryProvider {
  import opened Base

  /** `IQueryHandlerProvider.GetQueryHandler<TResult>(queryType)`. */
  type Provider<D> = TypeId -> Resolved<D>

  /** Providers before index `k` all answered null. */
  predicate AllNullBefore<D>(providers: seq<Provider<D>>, queryType: TypeId, k: int)
    requires 0 <= k <= |providers|
  {
    forall j :: 0 <= j < k ==> providers[j](queryType).Null?
  }

  /** `CompositeQueryHandlerProvider.GetQueryHandler<TResult>(queryType)`: the
      first provider that does not answer null decides, by returning its
      delegate or by throwing; if all answer null, or there are none,
      `QueryNotHandledException`. */
  function GetQueryHandler<D>(providers: seq<Provider<D>>, queryType: TypeId): (r: Result<D>)
    ensures r.Success? ==> exists k :: 0 <= k < |providers| && AllNullBefore(providers, queryType, k)
                                       && providers[k](queryType) == Instance(r.value)
    ensures AllNullBefore(providers, queryType, |providers|) ==> r == Failure(QueryNotHandled(queryType))
    ensures forall k :: 0 <= k < |providers| && AllNullBefore(providers, queryType, k) ==>
              && (providers[k](queryType).Instance? ==> r == Success(providers[k](queryType).handler))
              && (providers[k](queryType).Threw? ==> r == Failure(providers[k](queryType).error))
    ensures r.Failure? && r.error != QueryNotHandled(queryType) ==>
              exists k :: 0 <= k < |providers| && AllNullBefore(providers, queryType, k)
                          && providers[k](queryType) == Threw(r.error)
    decreases |providers|
  {
    if |providers| == 0 then Failure(QueryNotHandled(queryType))
    else
      match providers[0](queryType)
      case Instance(d) => Success(d)
      case Threw(e) => Failure(e)
      case Null =>
        var rest := GetQueryHandler(providers[1..], queryType);
        assert forall k :: 0 <= k < |providers| - 1 ==>
                 AllNullBefore(providers[1..], queryType, k) ==> AllNullBefore(providers, queryType, k + 1);
        rest
  }

  /** Providers after the first non-null answer are never consulted:
      replacing them changes nothing. */
  lemma {:induction false} LaterProvidersNotConsulted<D>(providers: seq<Provider<D>>, k: nat, others: seq<Provider<D>>, queryType: TypeId)
    requires k < |providers| && AllNullBefore(providers, queryType, k)
    requires !providers[k](queryType).Null?
    ensures GetQueryHandler(providers[..k + 1] + others, queryType) == GetQueryHandler(providers, queryType)
    decreases k
  {
    if k > 0 {
      assert (providers[..k + 1] + others)[1..] == providers[1..][..k] + others;
      LaterProvidersNotConsulted(providers[1..], k - 1, others, queryType);
    }
  }
}

=== FILE: container_resolvers.dfy ===
/** The container-backed query resolver: it asks the container for an async
    handler, then for a sync one, and treats a container exception like a
    null answer. */
module ContainerQueryResolver {
  import opened Base
  import opened QueryRegistration

  /** The two capabilities the resolver asks the container for. */
  datatype QueryContainer = QueryContainer(
    resolveAsync: TypeId -> Resolved<AsyncQueryHandler>,
    resolveSync: TypeId -> Resolved<SyncQueryHandler>)

  /** The delegate `QueryHandlerDelegateBuilder.FromQueryHandler` builds,
      identified by the handler it wraps. */
  datatype QueryDelegate = FromAsync(asyncHandler: AsyncQueryHandler) | FromSync(syncHandler: SyncQueryHandler)

  /** `ContainerQueryHandlerResolver.ResolveQueryHandler<TQuery, TResult>()`. */
  function Resolve(c: QueryContainer, queryType: TypeId): (r: Result<QueryDelegate>)
    ensures c.resolveAsync(queryType).Instance? ==> r == Success(FromAsync(c.resolveAsync(queryType).handler))
    ensures !c.resolveAsync(queryType).Instance? && c.resolveSync(queryType).Instance? ==>
              r == Success(FromSync(c.resolveSync(queryType).handler))
    ensures r.Failure? <==> !c.resolveAsync(queryType).Instance? && !c.resolveSync(queryType).Instance?
    ensures r.Failure? ==> r.error == QueryNotHandled(queryType)
  {
    match c.resolveAsync(queryType)
    case Instance(h) => Success(FromAsync(h))
    case _ =>
      match c.resolveSync(queryType)
      case Instance(h) => Success(FromSync(h))
      case _ => Failure(QueryNotHandled(queryType))
  }

  /** A container that throws is indistinguishable from one that returns
      null: two containers that produce the same instances resolve alike,
      whatever else they do. */
  lemma ContainerExceptionsAreSwallowed(c1: QueryContainer, c2: QueryContainer, queryType: TypeId)
    requires c1.resolveAsync(queryType).Instance? <==> c2.resolveAsync(queryType).Instance?
    requires c1.resolveAsync(queryType).Instance? ==> c1.resolveAsync(queryType) == c2.resolveAsync(queryType)
    requires c1.resolveSync(queryType).Instance? <==> c2.resolveSync(queryType).Instance?
    requires c1.resolveSync(queryType).Instance? ==> c1.resolveSync(queryType) == c2.resolveSync(queryType)
    ensures Resolve(c1, queryType) == Resolve(c2, queryType)
  {
  }
}

/** The container-backed command resolver: it asks the container for an async
    command handler only, and turns every failure into
    `NoCommandHandlerResolvedException`. */
module ContainerCommandResolver {
  import opened Base

  /** `ICommandAsyncHandler<TCommand>.HandleAsync` as a delegate. */
  type CommandDelegate = (Command, Token) -> Outcome<()>

  /** The capabilities a container could be asked for. */
  datatype CommandContainer = CommandContainer(
    resolveAsync: TypeId -> Resolved<CommandDelegate>,
    resolveSync: TypeId -> Resolved<CommandDelegate>)

  /** `ContainerCommandAsyncHandlerResolver.ResolveCommandHandler<TCommand>()`
      as written: the exception thrown for a null answer is raised inside the
      `try`, so the `catch` wraps it once more. */
  function Resolve(c: CommandContainer, commandType: TypeId): (r: Result<CommandDelegate>)
    ensures c.resolveAsync(commandType).Instance? ==> r == Success(c.resolveAsync(commandType).handler)
    ensures r.Failure? <==> !c.resolveAsync(commandType).Instance?
    ensures r.Failure? ==> r.error.NoCommandHandlerResolved? && r.error.commandType == commandType && r.error.inner.Some?
    ensures c.resolveAsync(commandType).Threw? ==>
              r == Failure(NoCommandHandlerResolved(commandType, Some(c.resolveAsync(commandType).error)))
  {
    match c.resolveAsync(commandType)
    case Instance(h) => Success(h)
    case Null =>
      var unresolved := NoCommandHandlerResolved(commandType, None);
      Failure(NoCommandHandlerResolved(commandType, Some(unresolved)))
    case Threw(e) => Failure(NoCommandHandlerResolved(commandType, Some(e)))
  }

  /** `Resolve` with the null answer raising the "unable to resolve" exception
      without an inner exception, as the two-message exception factory
      intends. */
  function ResolveIntended(c: CommandContainer, commandType: TypeId): (r: Result<CommandDelegate>)
    ensures c.resolveAsync(commandType).Instance? ==> r == Success(c.resolveAsync(commandType).handler)
    ensures c.resolveAsync(commandType).Null? ==> r == Failure(NoCommandHandlerResolved(commandType, None))
    ensures c.resolveAsync(commandType).Threw? ==>
              r == Failure(NoCommandHandlerResolved(commandType, Some(c.resolveAsync(commandType).error)))
    ensures r.Failure? ==> r.error.NoCommandHandlerResolved? && r.error.commandType == commandType
  {
    match c.resolveAsync(commandType)
    case Instance(h) => Success(h)
    case Null => Failure(NoCommandHandlerResolved(commandType, None))
    case Threw(e) => Failure(NoCommandHandlerResolved(commandType, Some(e)))
  }

  /** Only the async capability is consulted: the sync one never changes the
      outcome, so there is no sync fallback. */
  lemma NoSyncFallback(c1: CommandContainer, c2: CommandContainer, commandType: TypeId)
    requires c1.resolveAsync(commandType) == c2.resolveAsync(commandType)
    ensures Resolve(c1, commandType) == Resolve(c2, commandType)
    ensures ResolveIntended(c1, commandType) == ResolveIntended(c2, commandType)
  {
  }

  /** As written, a null answer yields a `NoCommandHandlerResolvedException`
      whose inner exception is another `NoCommandHandlerResolvedException`;
      the intended result carries no inner exception. */
  lemma NullAnswerIsWrappedTwice(c: CommandContainer, commandType: TypeId)
    requires c.resolveAsync(commandType).Null?
    ensures Resolve(c, commandType).error.inner == Some(NoCommandHandlerResolved(commandType, None))
    ensures ResolveIntended(c, commandType).error.inner == None
    ensures Resolve(c, commandType) != ResolveIntended(c, commandType)
  {
  }
}

=== FILE: domain_event_store.dfy ===
/** The `Save` template of the abstract synchronous store: take the
    aggregate's uncommitted events, commit them through the concrete store's
    `Commit`, hand them to the publisher in the background, then clear the
    aggregate's queue. The concrete store is an opaque backend `B` with its
    commit function; the publisher is modelled only as the list of events
    handed to it. */
module DomainEventStore {
  import opened Base
  import opened Aggregate

  /** What a `Commit` call leaves behind: the backend afterwards and the
      exception it threw, if any. `Commit` is supplied by the concrete store,
      so it may write part of the stream and then throw; the backend it
      leaves is kept either way. */
  datatype Committed<B> = Committed(backend: B, error: Option<Exception>)

  /** Everything a `Save` call leaves behind: the backend, the aggregate, the
      events handed to the publisher and the exception thrown, if any. */
  datatype Saved<B, !S> = Saved(backend: B, aggregate: Aggregate<S>, published: seq<Event>, error: Option<Exception>)

  /** `DomainEventStore.Save`. `Commit` receives the aggregate's id and
      uncommitted events; whatever it wrote stays written. A throwing commit
      propagates: nothing is published and the queue is kept. */
  function Save<B, S>(backend: B, commit: (B, Stream) -> Committed<B>, a: Aggregate<S>): (r: Saved<B, S>)
    ensures r.aggregate.version == a.version && r.aggregate.id == a.id && r.aggregate.state == a.state
    ensures r.backend == commit(backend, Stream(a.id, a.uncommitted)).backend
    ensures r.error == commit(backend, Stream(a.id, a.uncommitted)).error
    ensures r.error.Some? ==> r.aggregate == a && r.published == []
    ensures r.error.None? ==> r.aggregate == a.(uncommitted := []) && r.published == a.uncommitted
  {
    var toCommit := GetUncommitted(a);
    var c := commit(backend, toCommit);
    match c.error
    case Some(e) => Saved(c.backend, a, [], Some(e))
    case None => Saved(c.backend, ClearUncommitted(a), toCommit.events, None)
  }
}

/** The `SaveAsync` template of the abstract asynchronous store: the same
    commit, notify, clear sequence, with the caller's cancellation token
    passed to `CommitAsync` and to every `PublishAsync` call. */
module DomainEventAsyncStore {
  import opened Base
  import opened Aggregate
  import DomainEventStore

  /** One `PublishAsync(domainEvent, cancellationToken)` call. */
  datatype PublishCall = PublishCall(event: Event, token: Token)

  /** What the task of a `CommitAsync` call leaves behind: the backend
      afterwards and how the task ended. */
  datatype CommittedAsync<B> = CommittedAsync(backend: B, task: Outcome<()>)

  datatype SavedAsync<B, !S> = SavedAsync(backend: B, aggregate: Aggregate<S>, published: seq<PublishCall>, outcome: Outcome<()>)

  /** The publisher calls of the background notification: one per event, in
      stream order, each with the caller's token. */
  function PublishCalls(es: seq<Event>, token: Token): (r: seq<PublishCall>)
    ensures |r| == |es|
    ensures forall i :: 0 <= i < |r| ==> r[i].event == es[i] && r[i].token == token
  {
    seq(|es|, i requires 0 <= i < |es| => PublishCall(es[i], token))
  }

  /** `DomainEventAsyncStore.SaveAsync`. A faulted or cancelled commit ends
      the returned task the same way, with nothing published and the queue
      kept. */
  function SaveAsync<B, S>(backend: B, commitAsync: (B, Stream, Token) -> CommittedAsync<B>, a: Aggregate<S>, token: Token)
    : (r: SavedAsync<B, S>)
    ensures r.aggregate.version == a.version && r.aggregate.id == a.id && r.aggregate.state == a.state
    ensures r.backend == commitAsync(backend, Stream(a.id, a.uncommitted), token).backend
    ensures r.outcome == commitAsync(backend, Stream(a.id, a.uncommitted), token).task
    ensures !r.outcome.Ok? ==> r.aggregate == a && r.published == []
    ensures r.outcome.Ok? ==>
              && r.aggregate == a.(uncommitted := [])
              && |r.published| == |a.uncommitted|
              && (forall i :: 0 <= i < |r.published| ==> r.published[i] == PublishCall(a.uncommitted[i], token))
  {
    var toCommit := GetUncommitted(a);
    var c := commitAsync(backend, toCommit, token);
    match c.task
    case Fault(e) => SavedAsync(c.backend, a, [], Fault(e))
    case Cancelled => SavedAsync(c.backend, a, [], Cancelled)
    case Ok(u) => SavedAsync(c.backend, ClearUncommitted(a), PublishCalls(toCommit.events, token), Ok(u))
  }

  /** The task a synchronous commit would give. */
  function AsTask<B>(c: DomainEventStore.Committed<B>): CommittedAsync<B>
  {
    match c.error
    case None => CommittedAsync(c.backend, Ok(()))
    case Some(e) => CommittedAsync(c.backend, Fault(e))
  }

  /** With a commit that behaves like a synchronous one, the asynchronous
      template commits, clears and publishes exactly what the synchronous one
      does, and tags every publication with the caller's token. */
  lemma AsyncSaveAgreesWithSave<B, S>(backend: B, commit: (B, Stream) -> DomainEventStore.Committed<B>,
                                      commitAsync: (B, Stream, Token) -> CommittedAsync<B>, a: Aggregate<S>, token: Token)
    requires commitAsync(backend, Stream(a.id, a.uncommitted), token) == AsTask(commit(backend, Stream(a.id, a.uncommitted)))
    ensures SaveAsync(backend, commitAsync, a, token).backend == DomainEventStore.Save(backend, commit, a).backend
    ensures SaveAsync(backend, commitAsync, a, token).aggregate == DomainEventStore.Save(backend, commit, a).aggregate
    ensures SaveAsync(backend, commitAsync, a, token).published
            == PublishCalls(DomainEventStore.Save(backend, commit, a).published, token)
    ensures SaveAsync(backend, commitAsync, a, token).outcome.Ok? <==> DomainEventStore.Save(backend, commit, a).error.None?
  {
  }
}

=== FILE: in_memory_store.dfy ===
/** The in-memory event store: a map from aggregate id to its append-only
    event stream, full and version-bounded reads, and a `Save` that runs the
    commit, notify, clear sequence inside a `try` whose `catch` hands the
    exception to the overridable `OnCommitError` (which rethrows by default). */
module InMemoryStore {
  import opened Base
  import opened Aggregate
  import DomainEventStore

  type Store = map<Id, seq<Event>>

  /** `GetDomainEventStream(aggregateId)`: a copy of the stored stream, empty
      for an id that was never committed. */
  function Read(store: Store, id: Id): (r: seq<Event>)
    ensures id !in store ==> r == []
    ensures id in store ==> r == store[id]
  {
    if id in store then store[id] else []
  }

  /** `TakeWhile(e => e.AggregateVersion <= version)`: the longest prefix
      whose events all carry a version at most `version`. */
  function TakeWhileAtMost(es: seq<Event>, version: int): (r: seq<Event>)
    ensures r <= es
    ensures forall i :: 0 <= i < |r| ==> r[i].aggregateVersion <= version
    ensures |r| < |es| ==> es[|r|].aggregateVersion > version
    decreases |es|
  {
    if |es| == 0 || es[0].aggregateVersion > version then []
    else [es[0]] + TakeWhileAtMost(es[1..], version)
  }

  /** `GetDomainEventStream(aggregateId, version)`: a prefix of the full read,
      cut before the first event newer than `version`. */
  function ReadUpTo(store: Store, id: Id, version: int): (r: seq<Event>)
    ensures r <= Read(store, id)
    ensures forall i :: 0 <= i < |r| ==> r[i].aggregateVersion <= version
    ensures |r| < |Read(store, id)| ==> Read(store, id)[|r|].aggregateVersion > version
  {
    TakeWhileAtMost(Read(store, id), version)
  }

  /** `Commit`: appends to the existing stream of the stream's aggregate, or
      stores the stream as the first one; no other id is touched. */
  function Commit(store: Store, s: Stream): (r: Store)
    ensures r.Keys == store.Keys + {s.aggregateId}
    ensures r[s.aggregateId] == Read(store, s.aggregateId) + s.events
    ensures s.aggregateId !in store ==> r[s.aggregateId] == s.events
    ensures forall id :: id in store && id != s.aggregateId ==> r[id] == store[id]
  {
    if s.aggregateId in store then store[s.aggregateId := store[s.aggregateId] + s.events]
    else store[s.aggregateId := s.events]
  }

  /** The store's own `Commit`, which never throws; a subclass may override it. */
  function DefaultCommit(store: Store, s: Stream): (r: DomainEventStore.Committed<Store>)
    ensures r.error.None?
    ensures r.backend.Keys == store.Keys + {s.aggregateId}
    ensures r.backend[s.aggregateId] == Read(store, s.aggregateId) + s.events
    ensures forall id :: id in store && id != s.aggregateId ==> r.backend[id] == store[id]
  {
    DomainEventStore.Committed(Commit(store, s), None)
  }

  /** An override that calls the base `Commit` and then throws `e`. */
  function CommitThenThrow(e: Exception): (Store, Stream) -> DomainEventStore.Committed<Store>
  {
    (store: Store, s: Stream) => DomainEventStore.Committed(Commit(store, s), Some(e))
  }

  /** The default `OnCommitError`: rethrow. An override may swallow (`None`)
      or throw something else. */
  function Rethrow(e: Exception): (r: Option<Exception>)
    ensures r.Some? && r.value == e
  {
    Some(e)
  }

  /** `Save`: the store template, with a commit failure routed through
      `onCommitError`. If the commit throws, the aggregate keeps its queue and
      nothing is published, whatever the hook does; the store is what the
      commit left behind. */
  function Save<S>(store: Store, commit: (Store, Stream) -> DomainEventStore.Committed<Store>,
                   onCommitError: Exception -> Option<Exception>, a: Aggregate<S>)
    : (r: DomainEventStore.Saved<Store, S>)
    ensures r.aggregate.version == a.version
    ensures r.backend == commit(store, Stream(a.id, a.uncommitted)).backend
    ensures commit(store, Stream(a.id, a.uncommitted)).error.Some? ==>
              && r.aggregate == a && r.published == []
              && r.error == onCommitError(commit(store, Stream(a.id, a.uncommitted)).error.value)
    ensures commit(store, Stream(a.id, a.uncommitted)).error.None? ==>
              && r.aggregate == a.(uncommitted := []) && r.published == a.uncommitted && r.error.None?
  {
    var saved := DomainEventStore.Save(store, commit, a);
    match saved.error
    case None => saved
    case Some(e) => saved.(error := onCommitError(e))
  }

  /** `GetDomainEventStreamAsync(aggregateId, token)`: a completed task
      holding the synchronous read; the token is ignored. */
  function ReadAsync(store: Store, id: Id, token: Token): (r: Outcome<seq<Event>>)
    ensures r == Ok(Read(store, id))
  {
    Ok(Read(store, id))
  }

  /** `GetDomainEventStreamAsync(aggregateId, version, token)`. */
  function ReadUpToAsync(store: Store, id: Id, version: int, token: Token): (r: Outcome<seq<Event>>)
    ensures r == Ok(ReadUpTo(store, id, version))
  {
    Ok(ReadUpTo(store, id, version))
  }

  /** `SaveAsync`: runs the synchronous `Save` (so its exceptions are thrown
      before a task is returned) and returns a completed task; the token is
      ignored. */
  function SaveAsync<S>(store: Store, commit: (Store, Stream) -> DomainEventStore.Committed<Store>,
                        onCommitError: Exception -> Option<Exception>, a: Aggregate<S>, token: Token)
    : (r: DomainEventStore.Saved<Store, S>)
    ensures r == Save(store, commit, onCommitError, a)
  {
    Save(store, commit, onCommitError, a)
  }

  /** With the store's own `Commit`, `Save` always succeeds: the aggregate's
      stream grows by exactly its uncommitted events in application order,
      other streams are untouched, the queue is emptied, the version is kept
      and the committed events are the ones handed to the publisher. */
  lemma SaveAppendsUncommitted<S>(store: Store, a: Aggregate<S>)
    ensures var r := Save(store, DefaultCommit, Rethrow, a);
            && r.error.None?
            && Read(r.backend, a.id) == Read(store, a.id) + a.uncommitted
            && (forall id :: id != a.id ==> Read(r.backend, id) == Read(store, id))
            && r.aggregate == a.(uncommitted := [])
            && r.published == a.uncommitted
  {
  }

  /** A failing commit under the default `OnCommitError` is rethrown
      unchanged, and the aggregate keeps its queue for a later attempt. */
  lemma FailedCommitIsRethrown<S>(store: Store, commit: (Store, Stream) -> DomainEventStore.Committed<Store>, a: Aggregate<S>)
    requires commit(store, Stream(a.id, a.uncommitted)).error.Some?
    ensures var r := Save(store, commit, Rethrow, a);
            && r.error == commit(store, Stream(a.id, a.uncommitted)).error
            && r.aggregate.uncommitted == a.uncommitted && r.published == []
  {
  }

  /** A commit override that writes through the base `Commit` and then
      throws leaves the events stored while the aggregate keeps them queued,
      so saving the aggregate again stores them a second time. */
  lemma PartialCommitIsKept<S>(store: Store, e: Exception, a: Aggregate<S>)
    ensures var r := Save(store, CommitThenThrow(e), Rethrow, a);
            && r.error == Some(e)
            && Read(r.backend, a.id) == Read(store, a.id) + a.uncommitted
            && r.aggregate.uncommitted == a.uncommitted
            && Read(Save(r.backend, DefaultCommit, Rethrow, r.aggregate).backend, a.id)
               == Read(store, a.id) + a.uncommitted + a.uncommitted
  {
  }

  /** Round trip: a fresh aggregate that applied `es` and is saved into a
      store that has no stream for it can be read back as exactly `es`, and
      rebuilding from that stream restores its version and domain state. */
  lemma SaveThenRebuild<S>(store: Store, id: Id, regs: seq<Registration<S>>, init: S, es: seq<Event>)
    requires id !in store
    requires New(id, regs, init).Success?
    requires ApplyAll(New(id, regs, init).value, es).Success?
    ensures var b := ApplyAll(New(id, regs, init).value, es).value;
            var stored := Read(Save(store, DefaultCommit, Rethrow, b).backend, id);
            && stored == es
            && FromHistory(regs, init, Some(AsHistory(stored))) == Success(b.(id := EmptyId, uncommitted := []))
  {
    var b := ApplyAll(New(id, regs, init).value, es).value;
    ApplyAllQueuesInOrder(New(id, regs, init).value, es);
    assert b.id == id && b.uncommitted == es by {
      ApplyAllFromOtherId(New(id, regs, init).value, New(id, regs, init).value, es);
    }
    SaveAppendsUncommitted(store, b);
    RebuildFromAppliedEvents(id, regs, init, es);
  }

  /** Only events with a version at most `version`, in stream order. */
  function AtMost(es: seq<Event>, version: int): seq<Event>
    decreases |es|
  {
    if |es| == 0 then []
    else (if es[0].aggregateVersion <= version then [es[0]] else []) + AtMost(es[1..], version)
  }

  predicate VersionsAscending(es: seq<Event>)
  {
    forall i, j :: 0 <= i < j < |es| ==> es[i].aggregateVersion <= es[j].aggregateVersion
  }

  /** When the stream's versions ascend, cutting at the first newer event is
      the same as keeping every event at most `version`. */
  lemma {:induction false} TakeWhileIsFilterWhenAscending(es: seq<Event>, version: int)
    requires VersionsAscending(es)
    ensures TakeWhileAtMost(es, version) == AtMost(es, version)
    decreases |es|
  {
    if |es| > 0 {
      if es[0].aggregateVersion > version {
        AllNewer(es, version);
      } else {
        TakeWhileIsFilterWhenAscending(es[1..], version);
      }
    }
  }

  /** In an ascending stream that starts above `version`, nothing is kept. */
  lemma {:induction false} AllNewer(es: seq<Event>, version: int)
    requires VersionsAscending(es)
    requires |es| > 0 && es[0].aggregateVersion > version
    ensures AtMost(es, version) == []
    decreases |es|
  {
    if |es| > 1 {
      AllNewer(es[1..], version);
    }
  }

  /** Stream order matters as written: an older event behind a newer one is
      not returned, although its version is within the bound. */
  lemma TakeWhileStopsAtFirstNewer()
    ensures var es := [Event(1, 7, 2, 0), Event(1, 7, 1, 0)];
            TakeWhileAtMost(es, 1) == [] && AtMost(es, 1) == [Event(1, 7, 1, 0)]
  {
    var es := [Event(1, 7, 2, 0), Event(1, 7, 1, 0)];
    assert es[1..] == [Event(1, 7, 1, 0)];
    assert es[1..][1..] == [];
  }
}

=== FILE: query_registration.dfy ===
/** Basic query handler registration: one entry per query type, holding the
    handler factory given to `Register`. The delegate built for an entry calls
    the factory each time it is invoked, so what it does depends on the
    `Scope` of the invocation, not of the registration. */
module QueryRegistration {
  import opened Base

  /** `IQueryHandler<TQuery, TResult>.Handle`: returns a value or throws. */
  type SyncQueryHandler = Query -> Result<Value>

  /** `IQueryAsyncHandler<TQuery, TResult>.HandleAsync`: returns a task. */
  type AsyncQueryHandler = (Query, Token) -> Outcome<Value>

  /** The factory passed to one of the two `Register` overloads: it returns
      a handler instance, returns null, or throws (a failed container
      resolution inside the factory, say). */
  datatype Entry =
    | SyncFactory(makeSync: Scope -> Resolved<SyncQueryHandler>)
    | AsyncFactory(makeAsync: Scope -> Resolved<AsyncQueryHandler>)

  /** The query handler delegate store, keyed by query type. */
  type Registry = map<TypeId, Entry>

  /** Both `Register` overloads: a query type that already has an entry, sync
      or async, is rejected and the store is left as it was; the factory is
      not called. */
  function Register(reg: Registry, queryType: TypeId, entry: Entry): (r: Result<Registry>)
    ensures r.Failure? <==> queryType in reg
    ensures r.Failure? ==> r.error == InvalidOperation(DuplicateQueryHandler, None)
    ensures r.Success? ==> r.value.Keys == reg.Keys + {queryType}
    ensures r.Success? ==> r.value[queryType] == entry
    ensures r.Success? ==> forall t :: t in reg ==> r.value[t] == reg[t]
  {
    if queryType in reg then Failure(InvalidOperation(DuplicateQueryHandler, None))
    else Success(reg[queryType := entry])
  }

  /** `ResolveQueryHandler<TQuery, TResult>()`: the stored delegate, or
      `QueryNotHandledException` for a type nobody registered. */
  function Resolve(reg: Registry, queryType: TypeId): (r: Result<Entry>)
    ensures r.Success? <==> queryType in reg
    ensures r.Success? ==> r.value == reg[queryType]
    ensures r.Failure? ==> r.error == QueryNotHandled(queryType)
  {
    if queryType in reg then Success(reg[queryType]) else Failure(QueryNotHandled(queryType))
  }

  /** Invoking the delegate built for `entry` in `scope`: the factory runs now;
      an exception it throws escapes unwrapped; a null instance is an
      `InvalidOperationException` at this point; a sync
      handler's value is returned as a completed task and its exception is
      not caught; an async handler receives the caller's token and its task is
      returned as is. */
  function Invoke(entry: Entry, scope: Scope, q: Query, token: Token): (r: Outcome<Value>)
    ensures entry.SyncFactory? && entry.makeSync(scope).Null? ==> r == Fault(InvalidOperation(NullHandlerInstance, None))
    ensures entry.AsyncFactory? && entry.makeAsync(scope).Null? ==> r == Fault(InvalidOperation(NullHandlerInstance, None))
    ensures entry.SyncFactory? && entry.makeSync(scope).Threw? ==> r == Fault(entry.makeSync(scope).error)
    ensures entry.AsyncFactory? && entry.makeAsync(scope).Threw? ==> r == Fault(entry.makeAsync(scope).error)
    ensures entry.SyncFactory? && entry.makeSync(scope).Instance? ==>
              match entry.makeSync(scope).handler(q)
              case Success(v) => r == Ok(v)
              case Failure(e) => r == Fault(e)
    ensures entry.AsyncFactory? && entry.makeAsync(scope).Instance? ==> r == entry.makeAsync(scope).handler(q, token)
  {
    match entry
    case SyncFactory(make) =>
      (match make(scope)
       case Null => Fault(InvalidOperation(NullHandlerInstance, None))
       case Threw(e) => Fault(e)
       case Instance(h) =>
         match h(q)
         case Success(v) => Ok(v)
         case Failure(e) => Fault(e))
    case AsyncFactory(make) =>
      match make(scope)
      case Null => Fault(InvalidOperation(NullHandlerInstance, None))
      case Threw(e) => Fault(e)
      case Instance(h) => h(q, token)
  }

  /** A second registration for a type is refused whichever overload either
      registration used. */
  lemma RegisterTwiceFails(reg: Registry, queryType: TypeId, first: Entry, second: Entry)
    requires Register(reg, queryType, first).Success?
    ensures Register(Register(reg, queryType, first).value, queryType, second)
            == Failure(InvalidOperation(DuplicateQueryHandler, None))
  {
  }

  /** After registering a type, resolving it gives its own factory back and
      every other type resolves as before. */
  lemma RegisterThenResolve(reg: Registry, queryType: TypeId, entry: Entry, other: TypeId)
    requires Register(reg, queryType, entry).Success?
    ensures Resolve(Register(reg, queryType, entry).value, queryType) == Success(entry)
    ensures other != queryType ==> Resolve(Register(reg, queryType, entry).value, other) == Resolve(reg, other)
  {
  }

  /** Two query types registered one after the other each dispatch to their
      own handler. */
  lemma TwoTypesResolveIndependently(t1: TypeId, e1: Entry, t2: TypeId, e2: Entry)
    requires t1 != t2
    ensures Register(map[], t1, e1).Success?
    ensures Register(Register(map[], t1, e1).value, t2, e2).Success?
    ensures var reg := Register(Register(map[], t1, e1).value, t2, e2).value;
            Resolve(reg, t1) == Success(e1) && Resolve(reg, t2) == Success(e2)
  {
    RegisterThenResolve(map[], t1, e1, t2);
    RegisterThenResolve(Register(map[], t1, e1).value, t2, e2, t1);
  }

  /** The synchronous delegate ignores the cancellation token. */
  lemma SyncDelegateIgnoresToken(make: Scope -> Resolved<SyncQueryHandler>, scope: Scope, q: Query, t1: Token, t2: Token)
    ensures Invoke(SyncFactory(make), scope, q, t1) == Invoke(SyncFactory(make), scope, q, t2)
  {
  }

  /** The factory is consulted at each invocation: a factory that yields null
      in one scope and a handler in another makes the same registered delegate
      fail in the first and run the handler in the second. */
  lemma FactoryRunsPerInvocation(make: Scope -> Resolved<AsyncQueryHandler>, s1: Scope, s2: Scope, q: Query, token: Token)
    requires make(s1).Null? && make(s2).Instance?
    ensures Invoke(AsyncFactory(make), s1, q, token) == Fault(InvalidOperation(NullHandlerInstance, None))
    ensures Invoke(AsyncFactory(make), s2, q, token) == make(s2).handler(q, token)
  {
  }
}
